=== FILE: README.md ===
# Chat threads of the Qwen 2.5 code interpreter, in Dafny

This project models the chat history of the browser code interpreter. The
page (`app/page.tsx`) turns every submission into a stored **thread** of
**messages**. It names a new thread by asking the language model for a
title. It then streams the model's answer into the thread's last message, one
field per callback, and records a thrown error. The sidebar
(`app/components/ChatHistory.tsx`) mirrors the stored collection. It
searches it, orders it newest first, renames and deletes threads, clears
everything, and derives the strings it displays: titles, previews, message
counts and export file names.

Every read-modify-write of the `chatThreads` storage slot becomes a pure
function on `seq<Thread>`, plus a `...Step` or `Handle...` wrapper that loads
and saves the slot exactly when the source does. The slot is a `Store`, which
is absent or holds the parsed collection. Clock readings are a `Clock` input.
The language model is a `NamingRun` input for the naming call and a `MainRun`
input (callbacks in order, then an optional thrown message) for the answer.

Modules, one per file:

- `Optional` (`optional.dfy`): the option type used for nullable fields.
- `Text` (`text.dfy`): ASCII `trim`, `toLowerCase`, `includes`, and writing a count in decimal.
- `Chat` (`chat.dfy`): `Message`, `Thread`, `findIndex`, the storage slot, and the collection invariant `WellFormed`. The invariant is: unique ids, names never blank, stored inputs trimmed and non-empty.
- `ThreadNaming` (`naming.dfy`): the sentence split `/[^.!?]+[.!?]+/g`, the preview, the naming prompt, and the name chosen from the model's answer.
- `Streaming` (`streaming.dfy`): thread creation, the pending message, the per-field callbacks, and the failure write.
- `Session` (`session.dfy`): the page's view state, the submit guard, new chat, thread selection, and one whole submission.
- `History` (`history.dfy`): the sidebar.

## Model

| member | source | states |
|---|---|---|
| Text.Trim | app/page.tsx:138 | The result is a slice of the input that removes only whitespace and has no whitespace left at either end |
| Text.TrimUnique | app/page.tsx:138 | Only one slice has that property, so `Trim` is pinned down by its contract |
| Text.TrimEmptyIff | app/page.tsx:138 | An input trims to the empty string exactly when it is all whitespace |
| Text.TrimIdempotent | app/page.tsx:170 | A trimmed input is in trimmed form, and trimming it again changes nothing |
| Text.Lower | app/components/ChatHistory.tsx:67 | Lower-casing keeps the length and maps each character by the ASCII case map |
| Text.ContainsIffOccurs | app/components/ChatHistory.tsx:67 | `includes` holds exactly when the needle occurs at some index of the haystack |
| Text.NatToString | app/components/ChatHistory.tsx:211 | A count is written as a non-empty string of digits with no leading zero |
| Text.ParseNatToString | app/components/ChatHistory.tsx:211 | Reading the written count back yields the count |
| Chat.FindThread | app/page.tsx:167 | `findIndex` returns the first position with the id, and returns none exactly when no thread has it |
| Chat.FindThreadSameShape | app/page.tsx:189-191 | Two collections with the same ids and message counts give the same lookup, so later callbacks find the thread an earlier one wrote |
| Chat.FindThreadUnique | app/page.tsx:167 | With unique ids, the first match is the only match |
| Chat.NameOrDefault | app/components/ChatHistory.tsx:100 | `text.trim() \|\| 'New Chat'` is never blank and has no whitespace at either end |
| Chat.Load | app/page.tsx:154 | An absent slot reads as the empty collection |
| Chat.LoadSave | app/page.tsx:161 | Reading back a saved collection yields exactly that collection |
| ThreadNaming.Sentences | app/page.tsx:75 | Every match is one or more non-terminators followed by one or more terminators |
| ThreadNaming.SentencesCarve | app/page.tsx:75 | The input is the skipped leading terminators, then the matches back to back, then a terminator-free tail |
| ThreadNaming.CarvingUnique | app/page.tsx:75 | Any such decomposition of the input has exactly the computed matches, so they are determined by the input |
| ThreadNaming.Preview | app/page.tsx:75-76 | With no match, the preview is the whole message |
| ThreadNaming.PreviewOfCarving | app/page.tsx:75-76 | The preview is the first three matches (or fewer) of any decomposition, joined by single spaces |
| ThreadNaming.NamingPrompt | app/page.tsx:34-45 | The naming request is the fixed instruction text, and after it exactly the preview |
| ThreadNaming.NamingPromptOfCarving | app/page.tsx:75-81 | For any decomposition of the message, the request ends with its first three matches joined by spaces, or with the whole message when there is no match |
| ThreadNaming.ChooseName | app/page.tsx:73-97 | The name is never blank. It is "New Chat", or the trimmed last result of a call that did not throw |
| ThreadNaming.LastResultWins | app/page.tsx:84-86 | Only the last result callback decides the name. Earlier results are irrelevant, even when the last one trims to nothing |
| Streaming.CreateThread | app/page.tsx:155-161 | The new thread is at index 0 with no messages. The old threads follow in their old order |
| Streaming.CreateKeepsWellFormed | app/page.tsx:153-161 | A fresh id and a good name keep the collection well formed, and later lookups find the new thread |
| Streaming.AppendPending | app/page.tsx:166-180 | If the id is stored, that thread alone gains one last message: the trimmed input with null fields and no error. Its earlier messages are kept and its `lastUpdated` is set. An unknown id changes nothing |
| Streaming.AppendLeavesPending | app/page.tsx:166-180 | After the append, the lookup still finds the same thread, and its last message is the pending one |
| Streaming.AppendToCreated | app/page.tsx:151-180 | A created thread followed by its first append holds exactly the pending message, in front of the old collection |
| Streaming.AppendKeepsWellFormed | app/page.tsx:166-180 | Appending an input that passed the guard keeps the collection well formed |
| Streaming.ApplyToMessage | app/page.tsx:186-237 | Each callback sets its own field. As written, the result callback also sets the stored flag. Every field it does not write is unchanged |
| Streaming.UpdatesCommute | app/page.tsx:186-237 | Callbacks that write different fields give the same message in either order |
| Streaming.UpdateIdempotent | app/page.tsx:186-237 | Repeating a callback with the same value changes nothing more |
| Streaming.LastWriter | app/page.tsx:186-237 | The last writer of a field is a callback that writes it with no later callback writing it. There is none exactly when no callback writes the field |
| Streaming.FoldLastValue | app/page.tsx:186-237 | After callbacks applied in order, each stored field holds the value its last writer carries, or its old value when no callback writes it |
| Streaming.ErrorFlagNotSticky | app/page.tsx:195 | A stored error flag can be cleared again, by an error callback with false or by a result callback |
| Streaming.ApplyUpdate | app/page.tsx:189-197 | Only the last message of the first matching thread changes. Message counts, other threads and `lastUpdated` are kept. A missing or empty thread means no change |
| Streaming.RecordFailure | app/page.tsx:246-255 | The matched thread's last message gets the error flag and the error text. A null id or a missing or empty thread means no change |
| Streaming.UpdateKeepsWellFormed | app/page.tsx:186-237 | Streaming writes keep the collection well formed |
| Streaming.FailureKeepsWellFormed | app/page.tsx:246-255 | The failure write keeps the collection well formed |
| Streaming.CreateStep | app/page.tsx:154-161 | Storage afterwards holds the created collection |
| Streaming.AppendStep | app/page.tsx:166-180 | Storage holds the appended collection, and the slot is untouched when the id is unknown |
| Streaming.UpdateStep | app/page.tsx:189-197 | The usage callback never writes. The others write exactly when the thread has a last message |
| Streaming.FailureStep | app/page.tsx:246-254 | Storage holds the collection with the failure recorded. With a null id, or an id whose thread is missing or empty, the slot is untouched |
| Session.CanSubmit | app/page.tsx:137-138 | Submission goes ahead exactly when the model is loaded, no stream runs, and the input is not all whitespace |
| Session.NewChat | app/page.tsx:99-108 | The active thread and all displayed fields are cleared. The streaming flag is kept |
| Session.SelectThread | app/page.tsx:110-130 | The id always becomes active. When its thread has messages, the view shows exactly the last message's fields; otherwise nothing else changes |
| Session.SelectShowsLatestUpdate | app/page.tsx:110-130 | Selecting a thread right after a callback wrote into it shows the value just written |
| Session.ApplyToView | app/page.tsx:186-239 | Each callback shows its own value: a result as the result, the code output, the explanation, and the error flag. Every other field is unchanged, and the usage callback changes nothing here |
| Session.ViewFollowsMessage | app/page.tsx:186-239 | Without the stale flag write, a page that shows a message's four fields still shows them after the same callback has written both |
| Session.Stream | app/page.tsx:182-241 | Feeding the callbacks keeps the active id, the input and the streaming flag, and keeps every thread's id and message count. When the target has no last message, storage is untouched |
| Session.StreamLastWrite | app/page.tsx:182-241 | For any callbacks, on the page and in the target's stored last message, each answer field holds what the last callback writing it set, or its old value when none did. For the stored flag the result policy decides. The message's input and timestamp, the target's earlier messages and every other thread are kept |
| Session.Started | app/page.tsx:140-162 | After the guard the page streams, shows an empty result and explanation, no code output and no error, and the target thread is active |
| Session.Prepared | app/page.tsx:150-180 | An active id that is not stored leaves the slot untouched. A new chat adds exactly one thread; an active one adds none |
| Session.PreparedNewThread | app/page.tsx:150-180 | With no active thread, storage gains one thread in front, named by the naming call and holding only the pending message |
| Session.Settle | app/page.tsx:242-258 | A throw shows the error and records it against the given id. Either way the stream ends |
| Session.Submission | app/page.tsx:132-259 | A blocked submission changes nothing. Otherwise the stream ends, the target thread becomes active, the input stays, and a thrown error is shown. Storage gains one thread exactly for a new chat, and an active id that is not stored leaves storage as it was |
| Session.Submit | app/page.tsx:132-259 | The code as written has the same page and storage guarantees as `Submission` |
| Session.SubmitCorrected | app/page.tsx:132-259 | The corrected code has the same page and storage guarantees as `Submission` |
| Session.SubmissionStores | app/page.tsx:132-259 | For any callbacks and failure, as written and corrected, the target's last message has the trimmed input and the message timestamp. Each answer field holds the thrown error when the catch path reaches the target, else the last streamed write, else its appended null or false. Every other stored thread is kept, behind the new thread if one was created. An active id that is not stored leaves storage as it was |
| Session.PreparedHasPending | app/page.tsx:150-180 | Before streaming, the target thread exists and ends with the pending message |
| Session.StreamKeepsWellFormed | app/page.tsx:182-241 | Any sequence of callbacks keeps the collection well formed |
| Session.SubmissionKeepsWellFormed | app/page.tsx:132-259 | A whole submission keeps the collection well formed, given a clock id not already stored |
| Session.FirstMessageAnswered | app/page.tsx:132-259 | First message of a new chat, answered without error: one new thread in front holds exactly the trimmed input and the streamed values, and the page shows them |
| Session.StaleErrorFlagStored | app/page.tsx:195 | As written: after an errored answer, the next answer in the thread is stored as errored while the page shows it clean |
| Session.StreamMirrorsFlag | app/page.tsx:226-237 | Without the stale write, every callback keeps the stored flag equal to the shown flag |
| Session.CorrectedFlagMatchesView | app/page.tsx:186-255 | Corrected: for any callbacks and any outcome, the stored flag of the new message equals the shown flag, and a thrown error is stored as its result |
| Session.NewThreadFailureLost | app/page.tsx:247 | As written: when the submission created its thread, a throw reaches the page but not storage. The message stays pending |
| Session.NewThreadFailureRecorded | app/page.tsx:242-255 | Corrected: the same throw is stored on the new thread's message |
| History.Refresh | app/components/ChatHistory.tsx:43-48 | A present slot replaces the list. An absent slot leaves the list as it was |
| History.RefreshAfterSave | app/components/ChatHistory.tsx:43-48 | After any write, the next refresh shows exactly what was written |
| History.Clear | app/components/ChatHistory.tsx:75-78 | The list is empty and the slot is removed, not written empty |
| History.ClearLeavesOtherSidebarStale | app/components/ChatHistory.tsx:43-78 | After a clear, another sidebar's refresh keeps its old list. After a write of the empty collection it would empty |
| History.ClearIsStable | app/components/ChatHistory.tsx:51-57 | After a clear, any number of polling refreshes leaves the sidebar empty |
| History.Filter | app/components/ChatHistory.tsx:65-72 | The kept threads are exactly the stored threads that pass the search test |
| History.ThreadMatchesIffMentions | app/components/ChatHistory.tsx:66-71 | The search test holds exactly when the lower-cased term occurs in the name, a user input, or a non-null result. Skipping empty results loses nothing |
| History.FilterIffMentions | app/components/ChatHistory.tsx:65-72 | A thread survives the search exactly when it is stored and mentions the term |
| History.FilterEmptyTerm | app/components/ChatHistory.tsx:65-72 | An empty search keeps every thread, in stored order |
| History.FilterIgnoresTermCase | app/components/ChatHistory.tsx:67-70 | The search gives the same list whatever the case of the term |
| History.FilterAppend | app/components/ChatHistory.tsx:65-72 | Filtering distributes over concatenation, so stored order is kept |
| History.SortByRecency | app/components/ChatHistory.tsx:73 | The sorted list is a permutation of its input |
| History.SortNewestFirst | app/components/ChatHistory.tsx:73 | The sorted list never increases in `lastUpdated` |
| History.SortStable | app/components/ChatHistory.tsx:73 | Threads with equal `lastUpdated` keep their relative order |
| History.Listed | app/components/ChatHistory.tsx:65-73 | The displayed list holds exactly the stored threads that pass the search |
| History.ListedSpec | app/components/ChatHistory.tsx:65-73 | The displayed list is newest first, stable on ties, and holds exactly the stored threads that mention the term |
| History.Rename | app/components/ChatHistory.tsx:96-101 | Only the first matching thread's name changes, to the trimmed new name or "New Chat". Everything else is kept. An unknown id changes nothing |
| History.RenameKeepsWellFormed | app/components/ChatHistory.tsx:96-101 | Renaming keeps the collection well formed |
| History.RenameIdempotent | app/components/ChatHistory.tsx:96-101 | Renaming twice to the same name equals renaming once |
| History.HandleRename | app/components/ChatHistory.tsx:96-105 | Storage and the list are written only when the id is stored |
| History.RemoveThread | app/components/ChatHistory.tsx:110 | The result holds exactly the threads with another id. An unknown id changes nothing |
| History.RemoveAppend | app/components/ChatHistory.tsx:110 | Deletion distributes over concatenation, so relative order is kept |
| History.RemoveUnique | app/components/ChatHistory.tsx:110 | With unique ids, exactly the one matching thread goes and the rest close up |
| History.RemoveKeepsWellFormed | app/components/ChatHistory.tsx:107-112 | Deleting keeps the collection well formed |
| History.HandleDelete | app/components/ChatHistory.tsx:107-116 | Storage is always written with the filtered collection, never removed, and the list holds it. A new-chat reset is requested exactly when the deleted id was the active one |
| History.DeletedIsGone | app/components/ChatHistory.tsx:107-112 | After a deletion, no lookup finds the id |
| History.ThreadTitle | app/components/ChatHistory.tsx:80-84 | No messages gives "New Chat". Otherwise the title starts with the first 30 characters of the first input, is at most 33 long, and exceeds 30 exactly when the input does. A longer input is cut after 30 characters and "..." follows |
| History.TitleShowsShortInput | app/components/ChatHistory.tsx:83 | A title of at most 30 characters is the whole first input |
| History.MessagePreview | app/components/ChatHistory.tsx:86-89 | The preview is never empty. An errored message previews as "Error: " and its result, or "Error: null" when it has none. A clean message previews as its result, or "No response yet" when the result is null or empty |
| History.FailurePreview | app/components/ChatHistory.tsx:87 | After a failure is recorded, the message previews as "Error: " and the error text |
| History.CountLabel | app/components/ChatHistory.tsx:211 | The label is the written count, then " message", then "s" exactly when the count is not one |
| History.CountLabelReadsBack | app/components/ChatHistory.tsx:211 | The label's leading digits read back as the count, and it ends in "s" exactly when the count is not one |
| History.ExportFilename | app/components/ChatHistory.tsx:129 | Each character of the name maps one-for-one: ASCII letters are lower-cased, digits kept, anything else becomes "_". Then "_chat_export.json" follows |
| History.ExportFilenameSafe | app/components/ChatHistory.tsx:129 | The part before the suffix holds only lower-case letters, digits and "_" |
| History.ExportStemStable | app/components/ChatHistory.tsx:129 | Exporting a thread named after a sanitised stem keeps that stem |
| History.ExportFilenameExample | app/components/ChatHistory.tsx:129 | "My Calc!" is exported as "my_calc__chat_export.json" |

### Behaviour taken from the code

- `hasError` is not sticky. An error callback with `false` clears the stored flag (app/page.tsx:234). Every result callback overwrites the stored flag with the one captured when the submission started (app/page.tsx:195). That clears it only when that flag was false.
- The thread name is the trimmed value of the **last** result callback (app/page.tsx:85, 93). A last result that trims to nothing gives "New Chat", even if an earlier result was non-empty.
- `lastUpdated` is set when a thread is created and on every append (app/page.tsx:159, 178). The streaming callbacks do not update it.
- Thread creation and the first append are two separate writes (app/page.tsx:161, 179). Between them the stored thread has no messages.
- `!currentThreadId` treats both null and the empty string as "no active thread" (app/page.tsx:151). `Session.NoActiveThread` models both.

## Left out

- Serialisation: `JSON.parse`, `JSON.stringify`, and parse failures of a corrupted slot. A present slot holds the parsed collection. The empty-string slot that `loadThreads` treats as absent is not distinguished from an absent slot.
- The one-second polling interval and the cross-tab `storage` listener (app/components/ChatHistory.tsx:50-62). These are timing and concurrency. Only the single refresh step is modelled.
- `handleUserInput` and `runPython`. They are the language-model and Python collaborators, and `lib/llm` is not part of this model. Their effect enters as the `NamingRun` and `MainRun` inputs.
- `Date.now()` and `new Date().toISOString()`. They enter as the `Clock` input. The export file's JSON body, the Blob and the download anchor are left out.
- Session.Settle: a thrown failure is always a string message. A thrown value that is not an `Error` has an undefined `message` (app/page.tsx:244, 252). The page then shows no result, and `JSON.stringify` drops `result` from the stored message. The model shows and stores the text instead.
- Session.Submission: a submission is modelled as one uninterrupted chain of writes. No storage write or page action is interleaved between its awaits and callbacks (app/page.tsx:152, 182). The source leaves the sidebar live during a stream, so a same-tab delete, rename, clear, select or new chat can run then. Another tab can also write the slot. Every callback and the catch path re-read the slot (app/page.tsx:189, 203, 216, 229, 246), and the model does not express those interleavings.
- Token usage, `formatTokensPerSecond` (floating point), toasts, the sidebar open flag, the rename editing state, and all rendering.
- app/components/ExamplePrompts.tsx (static data, a random shuffle, UI) and app/components/FAQ.tsx (static content).
- Text.Trim: only ASCII whitespace counts, not the full Unicode WhiteSpace and LineTerminator classes.
- Text.Lower: only ASCII letters are folded. For `ExportFilename` this is exact, because only ASCII letters, digits and "_" remain before lower-casing.
- History.ThreadTitle: counts Dafny characters, not the UTF-16 code units that `slice` and `length` count.
- History.ExportFilename: a character outside the Basic Multilingual Plane becomes one "_" here, but two in the source, which replaces each UTF-16 code unit.

## Findings

| source | as written | input that shows it | evidently intended | confidence | as-written member | corrected member |
|---|---|---|---|---|---|---|
| app/page.tsx:195 | The result callback stores `hasError` from the render that started the submission. That is the previous answer's flag, not the flag the page shows (reset to false at line 144) | The previous answer in the thread errored (`hasError` true). The next submission in that thread gets one result and no error | The stored flag follows the page's flag: false unless an error callback or a throw sets it | not executed | Session.StaleErrorFlagStored | Session.CorrectedFlagMatchesView |
| app/page.tsx:247 | The catch path looks the thread up by the `activeThreadId` captured at submission start. For a submission that created its thread, that id is null | No active thread, and the main call throws before any callback | The error is stored on the thread the message went into (`currentThreadId`) | not executed | Session.NewThreadFailureLost | Session.NewThreadFailureRecorded |

=== FILE: chat.dfy ===
/** The stored shape of the chat history: messages, threads, the lookup by id
    that every read-modify-write starts with, and the single storage slot that
    holds the whole collection. */
module Chat {
  import opened Optional
  import Text

  /** Fallback title for a thread whose name would otherwise be empty. */
  const NEW_CHAT: string := "New Chat"

  /** One user turn and the assistant's (possibly still streaming) answer.
      `timestamp` is the clock reading taken when the message was appended. */
  datatype Message = Message(
    userInput: string,
    result: Option<string>,
    codeOutput: Option<string>,
    explanation: Option<string>,
    hasError: bool,
    timestamp: int)

  datatype Thread = Thread(
    id: string,
    name: string,
    messages: seq<Message>,
    lastUpdated: int)

  /** `threads.findIndex(t => t.id === id)`: the position of the FIRST thread
      with that id, or `None` for JavaScript's `-1`. */
  function FindThread(ts: seq<Thread>, id: string): (r: Option<nat>)
    ensures r.Some? ==> r.value < |ts| && ts[r.value].id == id
    ensures r.Some? ==> forall k :: 0 <= k < r.value ==> ts[k].id != id
    ensures r.None? <==> forall k :: 0 <= k < |ts| ==> ts[k].id != id
  {
    if ts == [] then None
    else if ts[0].id == id then Some(0)
    else
      match FindThread(ts[1..], id)
      case None => None
      case Some(k) => Some(k + 1)
  }

  /** The thread at `FindThread(ts, id)` exists and has a last message, which is
      the condition under which the streaming writers touch storage. */
  predicate HasLastMessage(ts: seq<Thread>, id: string) {
    var i := FindThread(ts, id);
    i.Some? && |ts[i.value].messages| > 0
  }

  /** The last message of the first thread with id `id`. */
  function StoredLast(ts: seq<Thread>, id: string): Message
    requires HasLastMessage(ts, id)
  {
    var msgs := ts[FindThread(ts, id).value].messages;
    msgs[|msgs| - 1]
  }

  /** `r` has the same threads as `ts`, by id and message count, in the same order. */
  ghost predicate SameShape(ts: seq<Thread>, r: seq<Thread>) {
    && |r| == |ts|
    && forall k :: 0 <= k < |ts| ==> r[k].id == ts[k].id && |r[k].messages| == |ts[k].messages|
  }

  /** Lookups by id only look at ids, so they agree on collections of the same shape. */
  lemma {:induction false} FindThreadSameShape(ts: seq<Thread>, r: seq<Thread>, id: string)
    requires SameShape(ts, r)
    ensures FindThread(r, id) == FindThread(ts, id)
    ensures HasLastMessage(r, id) == HasLastMessage(ts, id)
  {
    if ts != [] {
      FindThreadSameShape(ts[1..], r[1..], id);
    }
  }

  /** `r` has the same ids as `ts`, position by position. */
  ghost predicate SameIds(ts: seq<Thread>, r: seq<Thread>) {
    |r| == |ts| && forall k :: 0 <= k < |ts| ==> r[k].id == ts[k].id
  }

  /** A lookup by id sees only ids. */
  lemma {:induction false} FindThreadSameIds(ts: seq<Thread>, r: seq<Thread>, id: string)
    requires SameIds(ts, r)
    ensures FindThread(r, id) == FindThread(ts, id)
  {
    if ts != [] {
      FindThreadSameIds(ts[1..], r[1..], id);
    }
  }

  ghost predicate UniqueIds(ts: seq<Thread>) {
    forall i, j :: 0 <= i < j < |ts| ==> ts[i].id != ts[j].id
  }

  /** A title as the system produces it: never empty, no whitespace at either end. */
  ghost predicate GoodName(name: string) {
    name != [] && Text.Trimmed(name)
  }

  /** The fallback title is itself a good title. */
  lemma NewChatIsGood()
    ensures GoodName(NEW_CHAT)
  {
    assert NEW_CHAT[0] == 'N' && NEW_CHAT[|NEW_CHAT| - 1] == 't';
  }

  /** `text.trim() || 'New Chat'`: the trimmed text, unless that is empty. */
  function NameOrDefault(text: string): (name: string)
    ensures GoodName(name)
    ensures Text.Trim(text) != [] ==> name == Text.Trim(text)
    ensures Text.Trim(text) == [] ==> name == NEW_CHAT
  {
    NewChatIsGood();
    Text.TrimIdempotent(text);
    var t := Text.Trim(text);
    if t == [] then NEW_CHAT else t
  }

  /** A message as the submit path creates it: the input was trimmed and non-empty. */
  ghost predicate GoodMessage(m: Message) {
    m.userInput != [] && Text.Trimmed(m.userInput)
  }

  ghost predicate GoodThread(t: Thread) {
    GoodName(t.name) && forall k :: 0 <= k < |t.messages| ==> GoodMessage(t.messages[k])
  }

  /** The invariant every stored collection keeps: ids are unique, names are
      never blank, and every message carries a trimmed non-empty input. */
  ghost predicate WellFormed(ts: seq<Thread>) {
    UniqueIds(ts) && forall k :: 0 <= k < |ts| ==> GoodThread(ts[k])
  }

  /** Replacing one thread by a good thread with the same id keeps the invariant. */
  lemma ReplaceThreadKeepsWellFormed(ts: seq<Thread>, r: seq<Thread>, i: nat)
    requires WellFormed(ts) && i < |ts| && |r| == |ts|
    requires forall k :: 0 <= k < |ts| && k != i ==> r[k] == ts[k]
    requires r[i].id == ts[i].id && GoodThread(r[i])
    ensures WellFormed(r)
  {
    assert SameIds(ts, r);
    forall a, b | 0 <= a < b < |r| ensures r[a].id != r[b].id {
      assert r[a].id == ts[a].id && r[b].id == ts[b].id;
    }
    forall k | 0 <= k < |r| ensures GoodThread(r[k]) {
      if k != i { assert r[k] == ts[k]; }
    }
  }

  /** With unique ids the first match is the only match. */
  lemma FindThreadUnique(ts: seq<Thread>, id: string, k: nat)
    requires UniqueIds(ts) && k < |ts| && ts[k].id == id
    ensures FindThread(ts, id) == Some(k)
  {
  }

  // ---------------------------------------------------------------- storage

  /** The `chatThreads` storage slot: absent, or holding the whole collection.
      Serialisation is not modelled; a present slot holds the parsed value. */
  datatype Store = Store(slot: Option<seq<Thread>>)

  /** `JSON.parse(localStorage.getItem('chatThreads') || '[]')`. */
  function Load(st: Store): (ts: seq<Thread>)
    ensures st.slot.None? ==> ts == []
    ensures st.slot.Some? ==> ts == st.slot.value
  {
    st.slot.GetOr([])
  }

  /** `localStorage.setItem('chatThreads', JSON.stringify(ts))`. */
  function Save(ts: seq<Thread>): (st: Store)
    ensures st.slot.Some?
  {
    Store(Some(ts))
  }

  /** `localStorage.removeItem('chatThreads')`. */
  const Removed: Store := Store(None)

  /** Reading back what was written yields exactly what was written. */
  lemma LoadSave(ts: seq<Thread>)
    ensures Load(Save(ts)) == ts
  {
  }
}

=== FILE: history.dfy ===
/** The sidebar of app/components/ChatHistory.tsx: its copy of the thread list,
    refreshed from storage, searched and ordered for display, and the rename,
    delete and clear actions that write storage back. */
module History {
  import opened Optional
  import opened Chat
  import Text
  import Streaming

  /** The sidebar's `threads` state next to the storage slot it mirrors. */
  datatype Sidebar = Sidebar(threads: seq<Thread>, store: Store)

  // ---------------------------------------------------------------- refresh and clear

  /** `loadThreads`: a present slot replaces the list; an absent one leaves it. */
  function Refresh(s: Sidebar): (r: Sidebar)
    ensures r.store == s.store
    ensures s.store.slot.Some? ==> r.threads == Load(s.store)
    ensures s.store.slot.None? ==> r.threads == s.threads
  {
    match s.store.slot
    case Some(ts) => s.(threads := ts)
    case None => s
  }

  /** `clearHistory`: the slot is removed and the list emptied. */
  function Clear(s: Sidebar): (r: Sidebar)
    ensures r.threads == [] && Load(r.store) == []
    ensures r.store == Removed
  {
    Sidebar([], Removed)
  }

  /** Removing the slot is not the same as writing an empty collection: a
      second sidebar (another tab) that refreshes after the clear keeps its old
      list, where after a write of `[]` it would empty. */
  lemma ClearLeavesOtherSidebarStale(s: Sidebar, other: seq<Thread>)
    ensures Refresh(Sidebar(other, Clear(s).store)).threads == other
    ensures Refresh(Sidebar(other, Save([]))).threads == []
  {
  }

  /** After a write, the next refresh shows exactly what was written. */
  lemma RefreshAfterSave(threads: seq<Thread>, ts: seq<Thread>)
    ensures Refresh(Sidebar(threads, Save(ts))).threads == ts
  {
  }

  /** A cleared sidebar stays empty however often it is refreshed, and the page
      reading storage afterwards sees no threads either. */
  lemma ClearIsStable(s: Sidebar, polls: nat)
    ensures RefreshTimes(Clear(s), polls) == Clear(s)
    ensures Load(Clear(s).store) == []
  {
    RefreshTimesNoSlot(Clear(s), polls);
  }

  function RefreshTimes(s: Sidebar, n: nat): Sidebar
    decreases n
  {
    if n == 0 then s else RefreshTimes(Refresh(s), n - 1)
  }

  lemma {:induction false} RefreshTimesNoSlot(s: Sidebar, n: nat)
    requires s.store.slot.None?
    ensures RefreshTimes(s, n) == s
    decreases n
  {
    if n > 0 {
      RefreshTimesNoSlot(Refresh(s), n - 1);
    }
  }

  // ---------------------------------------------------------------- search

  /** `hay.toLowerCase().includes(term.toLowerCase())`. */
  predicate Matches(hay: string, term: string) {
    Text.Contains(Text.Lower(hay), Text.Lower(term))
  }

  /** The message test of the search: the user input, or a result that is
      truthy (non-null and non-empty), contains the term. */
  predicate MessageMatches(m: Message, term: string) {
    Matches(m.userInput, term) || (m.result.Some? && m.result.value != "" && Matches(m.result.value, term))
  }

  /** `messages.some(...)`. */
  predicate SomeMessageMatches(ms: seq<Message>, term: string) {
    ms != [] && (MessageMatches(ms[0], term) || SomeMessageMatches(ms[1..], term))
  }

  predicate ThreadMatches(t: Thread, term: string) {
    Matches(t.name, term) || SomeMessageMatches(t.messages, term)
  }

  /** `threads.filter(...)`: the matching threads in their stored order. */
  function Filter(ts: seq<Thread>, term: string): (r: seq<Thread>)
    ensures |r| <= |ts|
    ensures forall t :: t in r <==> t in ts && ThreadMatches(t, term)
  {
    if ts == [] then []
    else if ThreadMatches(ts[0], term) then [ts[0]] + Filter(ts[1..], term)
    else Filter(ts[1..], term)
  }

  /** Reference meaning of the search, stated with positions instead of the
      scan: the lower-cased term occurs somewhere in the lower-cased name, in
      some message's user input, or in some message's (non-null) result. */
  ghost predicate Includes(hay: string, needle: string) {
    exists i :: Text.OccursAt(hay, needle, i)
  }

  ghost predicate MessageMentions(m: Message, term: string) {
    || Includes(Text.Lower(m.userInput), Text.Lower(term))
    || (m.result.Some? && Includes(Text.Lower(m.result.value), Text.Lower(term)))
  }

  ghost predicate Mentions(t: Thread, term: string) {
    || Includes(Text.Lower(t.name), Text.Lower(term))
    || exists k :: 0 <= k < |t.messages| && MessageMentions(t.messages[k], term)
  }

  lemma MatchesIffIncludes(hay: string, term: string)
    ensures Matches(hay, term) <==> Includes(Text.Lower(hay), Text.Lower(term))
  {
    Text.ContainsIffOccurs(Text.Lower(hay), Text.Lower(term));
  }

  /** The empty term is found in every string, the empty one included. */
  lemma EmptyTermMatches(hay: string, term: string)
    requires term == []
    ensures Matches(hay, term)
  {
    Text.ContainsEmpty(Text.Lower(hay));
  }

  /** Skipping an empty result (JavaScript's `msg.result && ...`) loses nothing:
      an empty result only contains the empty term, which the name contains too. */
  lemma {:induction false} SomeMessageMatchesIff(t: Thread, ms: seq<Message>, term: string)
    requires !Matches(t.name, term)
    ensures SomeMessageMatches(ms, term) <==> exists k :: 0 <= k < |ms| && MessageMentions(ms[k], term)
  {
    if term == [] {
      EmptyTermMatches(t.name, term);
    } else if ms != [] {
      SomeMessageMatchesIff(t, ms[1..], term);
      var m := ms[0];
      MatchesIffIncludes(m.userInput, term);
      if m.result.Some? {
        MatchesIffIncludes(m.result.value, term);
      }
      if exists k :: 0 <= k < |ms| && MessageMentions(ms[k], term) {
        var k :| 0 <= k < |ms| && MessageMentions(ms[k], term);
        if k > 0 { assert ms[1..][k - 1] == ms[k]; }
      }
      if exists k :: 0 <= k < |ms[1..]| && MessageMentions(ms[1..][k], term) {
        var k :| 0 <= k < |ms[1..]| && MessageMentions(ms[1..][k], term);
        assert ms[k + 1] == ms[1..][k];
      }
    }
  }

  /** The scan-based test keeps exactly the threads that mention the term. */
  lemma ThreadMatchesIffMentions(t: Thread, term: string)
    ensures ThreadMatches(t, term) <==> Mentions(t, term)
  {
    MatchesIffIncludes(t.name, term);
    if !Matches(t.name, term) {
      SomeMessageMatchesIff(t, t.messages, term);
    }
  }

  /** A thread is listed exactly when it is stored and mentions the term. */
  lemma FilterIffMentions(ts: seq<Thread>, term: string, t: Thread)
    ensures t in Filter(ts, term) <==> t in ts && Mentions(t, term)
  {
    ThreadMatchesIffMentions(t, term);
  }

  /** An empty search keeps every thread, in order. */
  lemma {:induction false} FilterEmptyTerm(ts: seq<Thread>)
    ensures Filter(ts, "") == ts
  {
    if ts != [] {
      EmptyTermMatches(ts[0].name, "");
      FilterEmptyTerm(ts[1..]);
      assert ts == [ts[0]] + ts[1..];
    }
  }

  /** The search ignores the case of the term. */
  lemma {:induction false} FilterIgnoresTermCase(ts: seq<Thread>, term: string)
    ensures Filter(ts, Text.Lower(term)) == Filter(ts, term)
  {
    Text.LowerIdempotent(term);
    if ts != [] {
      FilterIgnoresTermCase(ts[1..], term);
      assert ThreadMatches(ts[0], Text.Lower(term)) == ThreadMatches(ts[0], term) by {
        SameTermSameMessages(ts[0].messages, Text.Lower(term), term);
      }
    }
  }

  lemma {:induction false} SameTermSameMessages(ms: seq<Message>, a: string, b: string)
    requires Text.Lower(a) == Text.Lower(b)
    ensures SomeMessageMatches(ms, a) == SomeMessageMatches(ms, b)
  {
    if ms != [] {
      SameTermSameMessages(ms[1..], a, b);
    }
  }

  /** Filtering keeps the stored order: it distributes over concatenation. */
  lemma {:induction false} FilterAppend(a: seq<Thread>, b: seq<Thread>, term: string)
    ensures Filter(a + b, term) == Filter(a, term) + Filter(b, term)
  {
    if a != [] {
      assert (a + b)[1..] == a[1..] + b;
      FilterAppend(a[1..], b, term);
    } else {
      assert a + b == b;
    }
  }

  // ---------------------------------------------------------------- ordering

  /** Newest first: `lastUpdated` never increases along the list. */
  ghost predicate NewestFirst(ts: seq<Thread>) {
    forall i, j :: 0 <= i < j < |ts| ==> ts[i].lastUpdated >= ts[j].lastUpdated
  }

  /** The threads with a given `lastUpdated`, in list order. */
  function WithStamp(ts: seq<Thread>, stamp: int): (r: seq<Thread>)
    ensures forall t :: t in r <==> t in ts && t.lastUpdated == stamp
  {
    if ts == [] then []
    else if ts[0].lastUpdated == stamp then [ts[0]] + WithStamp(ts[1..], stamp)
    else WithStamp(ts[1..], stamp)
  }

  /** Puts `t` in front of the first thread that is not newer than it. */
  function Insert(t: Thread, ts: seq<Thread>): (r: seq<Thread>)
    ensures |r| == |ts| + 1
    ensures multiset(r) == multiset(ts) + multiset{t}
    ensures forall x :: x in r <==> x in ts || x == t
  {
    if ts == [] || ts[0].lastUpdated <= t.lastUpdated then [t] + ts
    else
      assert ts == [ts[0]] + ts[1..];
      [ts[0]] + Insert(t, ts[1..])
  }

  /** `.sort((a, b) => b.lastUpdated - a.lastUpdated)` with JavaScript's stable
      sort: each thread is inserted ahead of the (already ordered) later ones. */
  function SortByRecency(ts: seq<Thread>): (r: seq<Thread>)
    ensures |r| == |ts|
    ensures multiset(r) == multiset(ts)
  {
    if ts == [] then []
    else
      assert ts == [ts[0]] + ts[1..];
      Insert(ts[0], SortByRecency(ts[1..]))
  }

  /** In a newest-first list the head is at least as new as every element. */
  lemma HeadIsNewest(ts: seq<Thread>, x: Thread)
    requires NewestFirst(ts) && x in ts
    ensures ts[0].lastUpdated >= x.lastUpdated
  {
    var k :| 0 <= k < |ts| && ts[k] == x;
    if k > 0 { assert ts[0].lastUpdated >= ts[k].lastUpdated; }
  }

  lemma NewestFirstTail(ts: seq<Thread>)
    requires NewestFirst(ts) && ts != []
    ensures NewestFirst(ts[1..])
  {
    forall i, j | 0 <= i < j < |ts[1..]| ensures ts[1..][i].lastUpdated >= ts[1..][j].lastUpdated {
      assert ts[1..][i] == ts[i + 1] && ts[1..][j] == ts[j + 1];
    }
  }

  /** A list whose head is newest and whose tail is newest first is newest first. */
  lemma NewestFirstCons(x: Thread, rest: seq<Thread>)
    requires NewestFirst(rest)
    requires forall y :: y in rest ==> x.lastUpdated >= y.lastUpdated
    ensures NewestFirst([x] + rest)
  {
    var r := [x] + rest;
    forall i, j | 0 <= i < j < |r| ensures r[i].lastUpdated >= r[j].lastUpdated {
      assert r[j] == rest[j - 1];
      if i > 0 { assert r[i] == rest[i - 1]; }
    }
  }

  lemma {:induction false} InsertNewestFirst(t: Thread, ts: seq<Thread>)
    requires NewestFirst(ts)
    ensures NewestFirst(Insert(t, ts))
  {
    if ts == [] || ts[0].lastUpdated <= t.lastUpdated {
      forall y | y in ts ensures t.lastUpdated >= y.lastUpdated {
        HeadIsNewest(ts, y);
      }
      NewestFirstCons(t, ts);
    } else {
      NewestFirstTail(ts);
      InsertNewestFirst(t, ts[1..]);
      forall y | y in Insert(t, ts[1..]) ensures ts[0].lastUpdated >= y.lastUpdated {
        if y != t {
          assert y in ts;
          HeadIsNewest(ts, y);
        }
      }
      NewestFirstCons(ts[0], Insert(t, ts[1..]));
    }
  }

  /** Insertion skips only threads strictly newer than `t`, so among threads of
      any one stamp `t` lands in front of the ones already there. */
  lemma {:induction false} InsertWithStamp(t: Thread, ts: seq<Thread>, stamp: int)
    ensures WithStamp(Insert(t, ts), stamp)
         == (if t.lastUpdated == stamp then [t] else []) + WithStamp(ts, stamp)
  {
    if ts == [] || ts[0].lastUpdated <= t.lastUpdated {
      assert ([t] + ts)[1..] == ts;
    } else {
      InsertWithStamp(t, ts[1..], stamp);
      assert ([ts[0]] + Insert(t, ts[1..]))[1..] == Insert(t, ts[1..]);
    }
  }

  /** The sidebar order is newest first. */
  lemma {:induction false} SortNewestFirst(ts: seq<Thread>)
    ensures NewestFirst(SortByRecency(ts))
  {
    if ts != [] {
      SortNewestFirst(ts[1..]);
      InsertNewestFirst(ts[0], SortByRecency(ts[1..]));
    }
  }

  /** The sort is stable: threads with equal `lastUpdated` keep their stored order. */
  lemma {:induction false} SortStable(ts: seq<Thread>, stamp: int)
    ensures WithStamp(SortByRecency(ts), stamp) == WithStamp(ts, stamp)
  {
    if ts != [] {
      SortStable(ts[1..], stamp);
      InsertWithStamp(ts[0], SortByRecency(ts[1..]), stamp);
    }
  }

  /** `filteredThreads`: the matching threads, newest first. */
  function Listed(ts: seq<Thread>, term: string): (r: seq<Thread>)
    ensures |r| <= |ts|
    ensures forall t :: t in r <==> t in ts && ThreadMatches(t, term)
  {
    var f := Filter(ts, term);
    var r := SortByRecency(f);
    assert forall t :: t in r <==> t in multiset(f);
    r
  }

  /** The listed threads: newest first, ties in stored order, and exactly the
      stored threads that mention the term. */
  lemma ListedSpec(ts: seq<Thread>, term: string, stamp: int, t: Thread)
    ensures NewestFirst(Listed(ts, term))
    ensures WithStamp(Listed(ts, term), stamp) == WithStamp(Filter(ts, term), stamp)
    ensures t in Listed(ts, term) <==> t in ts && Mentions(t, term)
  {
    SortNewestFirst(Filter(ts, term));
    SortStable(Filter(ts, term), stamp);
    ThreadMatchesIffMentions(t, term);
  }

  // ---------------------------------------------------------------- rename

  /** `threads[i].name = newName.trim() || 'New Chat'` on the first thread with
      the id; an unknown id changes nothing. */
  function Rename(ts: seq<Thread>, id: string, newName: string): (r: seq<Thread>)
    ensures FindThread(ts, id).None? ==> r == ts
    ensures FindThread(ts, id).Some? ==>
      var i := FindThread(ts, id).value;
      && |r| == |ts|
      && r[i] == ts[i].(name := NameOrDefault(newName))
      && forall k :: 0 <= k < |ts| && k != i ==> r[k] == ts[k]
  {
    match FindThread(ts, id)
    case None => ts
    case Some(i) => ts[i := ts[i].(name := NameOrDefault(newName))]
  }

  /** Renaming keeps the collection well formed: the new name is never blank. */
  lemma RenameKeepsWellFormed(ts: seq<Thread>, id: string, newName: string)
    requires WellFormed(ts)
    ensures WellFormed(Rename(ts, id, newName))
  {
    var r := Rename(ts, id, newName);
    if FindThread(ts, id).Some? {
      var i := FindThread(ts, id).value;
      assert GoodThread(ts[i]);
      forall a, b | 0 <= a < b < |r| ensures r[a].id != r[b].id {
        assert r[a].id == ts[a].id && r[b].id == ts[b].id;
      }
      forall k | 0 <= k < |r| ensures GoodThread(r[k]) {
        if k != i { assert r[k] == ts[k]; }
      }
    }
  }

  /** Renaming twice to the same name is renaming once, and the thread keeps
      its place for the lookup. */
  lemma RenameIdempotent(ts: seq<Thread>, id: string, newName: string)
    ensures Rename(Rename(ts, id, newName), id, newName) == Rename(ts, id, newName)
  {
    var r := Rename(ts, id, newName);
    if FindThread(ts, id).Some? {
      var i := FindThread(ts, id).value;
      assert SameIds(ts, r) by {
        forall k | 0 <= k < |ts| ensures r[k].id == ts[k].id {
          if k != i { assert r[k] == ts[k]; }
        }
      }
      FindThreadSameIds(ts, r, id);
    }
  }

  /** `handleRenameThread`: storage and the list are written only when the id is stored. */
  function HandleRename(s: Sidebar, id: string, newName: string): (r: Sidebar)
    ensures FindThread(Load(s.store), id).None? ==> r == s
    ensures FindThread(Load(s.store), id).Some? ==>
      && Load(r.store) == Rename(Load(s.store), id, newName)
      && r.threads == Load(r.store)
  {
    var ts := Load(s.store);
    if FindThread(ts, id).None? then s
    else
      var r := Rename(ts, id, newName);
      Sidebar(r, Save(r))
  }

  // ---------------------------------------------------------------- delete

  /** `threads.filter(t => t.id !== id)`. */
  function RemoveThread(ts: seq<Thread>, id: string): (r: seq<Thread>)
    ensures |r| <= |ts|
    ensures forall t :: t in r <==> t in ts && t.id != id
    ensures FindThread(ts, id).None? ==> r == ts
  {
    if ts == [] then []
    else if ts[0].id == id then RemoveThread(ts[1..], id)
    else
      var rest := RemoveThread(ts[1..], id);
      assert FindThread(ts, id).None? ==> FindThread(ts[1..], id).None?;
      assert FindThread(ts, id).None? ==> ts == [ts[0]] + ts[1..];
      [ts[0]] + rest
  }

  /** Deletion keeps the stored order: it distributes over concatenation. */
  lemma {:induction false} RemoveAppend(a: seq<Thread>, b: seq<Thread>, id: string)
    ensures RemoveThread(a + b, id) == RemoveThread(a, id) + RemoveThread(b, id)
  {
    if a != [] {
      assert (a + b)[0] == a[0] && (a + b)[1..] == a[1..] + b;
      RemoveAppend(a[1..], b, id);
      if a[0].id != id {
        assert RemoveThread(a + b, id) == [a[0]] + RemoveThread(a[1..] + b, id);
        assert RemoveThread(a, id) == [a[0]] + RemoveThread(a[1..], id);
      }
    } else {
      assert a + b == b;
    }
  }

  /** With unique ids exactly one thread goes, and the rest close up in order. */
  lemma {:induction false} RemoveUnique(ts: seq<Thread>, id: string)
    requires UniqueIds(ts) && FindThread(ts, id).Some?
    ensures var i := FindThread(ts, id).value;
      RemoveThread(ts, id) == ts[..i] + ts[i + 1..]
  {
    var i := FindThread(ts, id).value;
    var tail := ts[1..];
    TailUnique(ts);
    if i == 0 {
      assert FindThread(tail, id).None? by {
        forall k | 0 <= k < |tail| ensures tail[k].id != id {
          assert tail[k] == ts[k + 1];
        }
      }
      assert RemoveThread(ts, id) == tail;
      assert ts[..0] + ts[1..] == tail;
    } else {
      assert FindThread(tail, id) == Some(i - 1);
      RemoveUnique(tail, id);
      RemoveUniqueStep(ts, i);
    }
  }

  lemma RemoveUniqueStep(ts: seq<Thread>, i: nat)
    requires 0 < i < |ts|
    ensures [ts[0]] + (ts[1..][..i - 1] + ts[1..][i..]) == ts[..i] + ts[i + 1..]
  {
    assert ts[..i] == [ts[0]] + ts[1..][..i - 1];
    assert ts[i + 1..] == ts[1..][i..];
  }

  lemma TailUnique(ts: seq<Thread>)
    requires UniqueIds(ts) && ts != []
    ensures UniqueIds(ts[1..])
  {
    var tail := ts[1..];
    forall a, b | 0 <= a < b < |tail| ensures tail[a].id != tail[b].id {
      assert tail[a] == ts[a + 1] && tail[b] == ts[b + 1];
    }
  }

  /** Every thread after the head of a collection with unique ids has another id. */
  lemma IdsAfterHead(ts: seq<Thread>, x: Thread)
    requires UniqueIds(ts) && ts != [] && x in ts[1..]
    ensures x.id != ts[0].id
  {
    var k :| 0 <= k < |ts[1..]| && ts[1..][k] == x;
    assert ts[k + 1] == x;
  }

  lemma {:induction false} RemoveKeepsUnique(ts: seq<Thread>, id: string)
    requires UniqueIds(ts)
    ensures UniqueIds(RemoveThread(ts, id))
  {
    if ts != [] {
      TailUnique(ts);
      RemoveKeepsUnique(ts[1..], id);
      if ts[0].id != id {
        var rest := RemoveThread(ts[1..], id);
        forall y | y in rest ensures y.id != ts[0].id {
          IdsAfterHead(ts, y);
        }
        ConsUnique(ts[0], rest);
      }
    }
  }

  /** A thread whose id is not in a collection with unique ids can go in front. */
  lemma ConsUnique(x: Thread, rest: seq<Thread>)
    requires UniqueIds(rest)
    requires forall y :: y in rest ==> y.id != x.id
    ensures UniqueIds([x] + rest)
  {
    var r := [x] + rest;
    forall a, b | 0 <= a < b < |r| ensures r[a].id != r[b].id {
      assert r[b] == rest[b - 1];
      if a > 0 { assert r[a] == rest[a - 1]; }
    }
  }

  lemma RemoveKeepsWellFormed(ts: seq<Thread>, id: string)
    requires WellFormed(ts)
    ensures WellFormed(RemoveThread(ts, id))
  {
    var r := RemoveThread(ts, id);
    RemoveKeepsUnique(ts, id);
    forall k | 0 <= k < |r| ensures GoodThread(r[k]) {
      assert r[k] in ts;
      var j :| 0 <= j < |ts| && ts[j] == r[k];
    }
  }

  /** What deletion leaves: the sidebar, and whether the page must reset to a
      new chat because the deleted thread was the active one. */
  datatype Deleted = Deleted(sidebar: Sidebar, resetChat: bool)

  /** `handleDeleteThread`: always writes the filtered collection back. */
  function HandleDelete(s: Sidebar, active: Option<string>, id: string): (r: Deleted)
    ensures r.sidebar.store == Save(RemoveThread(Load(s.store), id))
    ensures Load(r.sidebar.store) == RemoveThread(Load(s.store), id)
    ensures r.sidebar.threads == Load(r.sidebar.store)
    ensures r.resetChat <==> active == Some(id)
  {
    var ts := RemoveThread(Load(s.store), id);
    Deleted(Sidebar(ts, Save(ts)), active == Some(id))
  }

  /** A deleted thread cannot be found again, by the page or by the sidebar. */
  lemma DeletedIsGone(s: Sidebar, active: Option<string>, id: string)
    ensures FindThread(Load(HandleDelete(s, active, id).sidebar.store), id).None?
  {
  }

  // ---------------------------------------------------------------- display strings

  /** How many characters of the first user input a title shows. */
  const TITLE_LENGTH: nat := 30

  /** `getThreadTitle`: the first 30 characters of the first user input, with
      "..." when something was cut; "New Chat" for a thread with no messages. */
  function ThreadTitle(t: Thread): (r: string)
    ensures t.messages == [] ==> r == NEW_CHAT
    ensures t.messages != [] ==>
      var u := t.messages[0].userInput;
      var shown := if |u| <= TITLE_LENGTH then |u| else TITLE_LENGTH;
      && |r| <= TITLE_LENGTH + 3
      && shown <= |r|
      && r[..shown] == u[..shown]
      && (|u| <= TITLE_LENGTH ==> r == u)
      && (|r| > TITLE_LENGTH <==> |u| > TITLE_LENGTH)
      && (|u| > TITLE_LENGTH ==> r[TITLE_LENGTH..] == "...")
  {
    if t.messages == [] then NEW_CHAT
    else
      var u := t.messages[0].userInput;
      if |u| > TITLE_LENGTH then u[..TITLE_LENGTH] + "..." else u
  }

  /** A title that shows the whole input is the input: short first messages can be
      read back from the title. */
  lemma TitleShowsShortInput(t: Thread)
    requires t.messages != [] && |ThreadTitle(t)| <= TITLE_LENGTH
    ensures ThreadTitle(t) == t.messages[0].userInput
  {
  }

  /** `getMessagePreview`: errored messages read "Error: " and their result,
      with a null result written out as `null` by the string concatenation;
      otherwise the result, or "No response yet" when it is null or empty. */
  function MessagePreview(m: Message): (r: string)
    ensures r != []
    ensures m.hasError ==> Text.StartsWith(r, "Error: ")
    ensures m.hasError ==> r == "Error: " + (if m.result.None? then "null" else m.result.value)
    ensures !m.hasError && (m.result.None? || m.result.value == "") ==> r == "No response yet"
    ensures !m.hasError && m.result.Some? && m.result.value != [] ==> r == m.result.value
  {
    if m.hasError then "Error: " + (if m.result.None? then "null" else m.result.value)
    else if m.result.None? || m.result.value == "" then "No response yet"
    else m.result.value
  }

  /** After a failure is recorded, the sidebar previews that message as the error. */
  lemma FailurePreview(ts: seq<Thread>, id: string, error: string)
    requires HasLastMessage(ts, id)
    ensures var r := Streaming.RecordFailure(ts, Some(id), error);
      var i := FindThread(ts, id).value;
      MessagePreview(r[i].messages[|r[i].messages| - 1]) == "Error: " + error
  {
  }

  /** `{n} message{n !== 1 ? 's' : ''}`. */
  function CountLabel(n: nat): (r: string)
    ensures |r| > |Text.NatToString(n)|
    ensures r[..|Text.NatToString(n)|] == Text.NatToString(n)
    ensures r[|Text.NatToString(n)|..] == " message" + (if n != 1 then "s" else "")
  {
    Text.NatToString(n) + " message" + (if n != 1 then "s" else "")
  }

  /** The number of leading decimal digits of `s`. */
  function DigitRun(s: string): (n: nat)
    ensures n <= |s| && forall k :: 0 <= k < n ==> Text.IsDigit(s[k])
    ensures n == |s| || !Text.IsDigit(s[n])
  {
    if s == [] || !Text.IsDigit(s[0]) then 0 else 1 + DigitRun(s[1..])
  }

  lemma {:induction false} DigitRunOf(d: string, rest: string)
    requires forall k :: 0 <= k < |d| ==> Text.IsDigit(d[k])
    requires rest != [] && !Text.IsDigit(rest[0])
    ensures DigitRun(d + rest) == |d|
  {
    if d != [] {
      assert (d + rest)[1..] == d[1..] + rest;
      DigitRunOf(d[1..], rest);
    } else {
      assert d + rest == rest;
    }
  }

  /** The label loses nothing: its leading digits read back as the count, and it
      ends in the plural "s" exactly when the count is not one. */
  lemma CountLabelReadsBack(n: nat)
    ensures var l := CountLabel(n);
      && Text.ParseDecimal(l[..DigitRun(l)]) == n
      && (l[|l| - 1] == 's' <==> n != 1)
  {
    var d := Text.NatToString(n);
    var rest := " message" + (if n != 1 then "s" else "");
    assert CountLabel(n) == d + rest;
    DigitRunOf(d, rest);
    assert (d + rest)[..|d|] == d;
    Text.ParseNatToString(n);
  }

  // ---------------------------------------------------------------- export filename

  /** `.replace(/[^a-z0-9]/gi, '_')`. */
  function ReplaceNonAlnum(s: string): (r: string)
    ensures |r| == |s|
    ensures forall k :: 0 <= k < |s| ==> r[k] == (if Text.IsAsciiAlnum(s[k]) then s[k] else '_')
  {
    if s == [] then [] else [if Text.IsAsciiAlnum(s[0]) then s[0] else '_'] + ReplaceNonAlnum(s[1..])
  }

  const EXPORT_SUFFIX: string := "_chat_export.json"

  /** The download name `handleExportThread` gives a thread named `name`. */
  function ExportFilename(name: string): (r: string)
    ensures |r| == |name| + 17
    ensures r[|name|..] == EXPORT_SUFFIX
    ensures forall k :: 0 <= k < |name| ==>
      r[k] == (if Text.IsAsciiAlnum(name[k]) then Text.LowerChar(name[k]) else '_')
  {
    Text.Lower(ReplaceNonAlnum(name)) + EXPORT_SUFFIX
  }

  predicate FilenameChar(c: char) {
    'a' <= c <= 'z' || Text.IsDigit(c) || c == '_'
  }

  /** The part before the suffix uses only lower-case letters, digits and '_'. */
  lemma ExportFilenameSafe(name: string)
    ensures forall k :: 0 <= k < |name| ==> FilenameChar(ExportFilename(name)[k])
  {
  }

  /** Sanitising a sanitised stem changes nothing. */
  lemma ExportStemStable(name: string)
    ensures var stem := ExportFilename(name)[..|name|];
      ExportFilename(stem) == stem + EXPORT_SUFFIX
  {
    var stem := ExportFilename(name)[..|name|];
    var r := ExportFilename(stem);
    assert forall k :: 0 <= k < |stem| ==> FilenameChar(stem[k]);
    assert r[..|stem|] == stem;
    assert r == r[..|stem|] + r[|stem|..];
  }

  /** The worked example: "My Calc!" downloads as "my_calc__chat_export.json". */
  lemma ExportFilenameExample()
    ensures ExportFilename("My Calc!") == "my_calc__chat_export.json"
  {
    ReplacedExample();
    LoweredExample();
    SuffixedExample();
  }

  /** The space and the '!' become '_'. */
  lemma ReplacedExample()
    ensures ReplaceNonAlnum("My Calc!") == "My_Calc_"
  {
  }

  /** The capitals are lowered. */
  lemma LoweredExample()
    ensures Text.Lower("My_Calc_") == "my_calc_"
  {
  }

  /** The fixed suffix is appended. */
  lemma SuffixedExample()
    ensures "my_calc_" + EXPORT_SUFFIX == "my_calc__chat_export.json"
  {
  }
}

=== FILE: naming.dfy ===
/** How a new thread gets its title (app/page.tsx, `getThreadName`): the first
    message is cut into sentences by the regular expression `[^.!?]+[.!?]+`, the
    first three are sent with a fixed instruction to the language model, and the
    last trimmed answer it streams back becomes the name. */
module ThreadNaming {
  import opened Chat
  import Text

  predicate IsTerminator(c: char) {
    c == '.' || c == '!' || c == '?'
  }

  ghost predicate NoTerminators(s: string) {
    forall k :: 0 <= k < |s| ==> !IsTerminator(s[k])
  }

  ghost predicate AllTerminators(s: string) {
    forall k :: 0 <= k < |s| ==> IsTerminator(s[k])
  }

  /** Length of the longest terminator-free prefix (greedy `[^.!?]+`). */
  function PlainRun(s: string): (n: nat)
    ensures n <= |s| && NoTerminators(s[..n])
    ensures n == |s| || IsTerminator(s[n])
  {
    if s == [] || IsTerminator(s[0]) then 0
    else
      var n := 1 + PlainRun(s[1..]);
      assert s[..n] == [s[0]] + s[1..][..n - 1];
      n
  }

  /** Length of the longest all-terminator prefix (greedy `[.!?]+`). */
  function TerminatorRun(s: string): (n: nat)
    ensures n <= |s| && AllTerminators(s[..n])
    ensures n == |s| || !IsTerminator(s[n])
  {
    if s == [] || !IsTerminator(s[0]) then 0
    else
      var n := 1 + TerminatorRun(s[1..]);
      assert s[..n] == [s[0]] + s[1..][..n - 1];
      n
  }

  /** A string the pattern `[^.!?]+[.!?]+` matches in full. */
  ghost predicate IsSentence(m: string) {
    var p := PlainRun(m);
    0 < p < |m| && AllTerminators(m[p..])
  }

  ghost predicate AllSentences(ms: seq<string>) {
    forall k :: 0 <= k < |ms| ==> IsSentence(ms[k])
  }

  /** `message.match(/[^.!?]+[.!?]+/g)`, with no match giving the empty list.
      A match can only start at a non-terminator; if the terminator-free run
      from there reaches the end of the input, no later start can match either. */
  function Sentences(s: string): (ms: seq<string>)
    ensures AllSentences(ms)
    decreases |s|
  {
    if s == [] then []
    else if IsTerminator(s[0]) then Sentences(s[1..])
    else if PlainRun(s) == |s| then []
    else
      SentenceShape(s, PlainRun(s), TerminatorRun(s[PlainRun(s)..]));
      [s[..MatchEnd(s)]] + Sentences(s[MatchEnd(s)..])
  }

  /** Where the match that starts at the front of `s` ends: the greedy
      `[^.!?]+` run, then the greedy `[.!?]+` run after it. */
  function MatchEnd(s: string): (e: nat)
    requires PlainRun(s) < |s|
    ensures PlainRun(s) < e <= |s|
  {
    PlainRun(s) + TerminatorRun(s[PlainRun(s)..])
  }

  lemma SentenceShape(s: string, p: nat, q: nat)
    requires s != [] && !IsTerminator(s[0])
    requires p == PlainRun(s) < |s| && q == TerminatorRun(s[p..])
    ensures IsSentence(s[..p + q])
  {
    RunsNonEmpty(s, p, q);
    PlainRunOfPrefix(s, p + q);
    TerminatorsOfPrefix(s, p, q);
    SentenceOf(s[..p + q], p);
  }

  /** The terminator run read off the cut prefix. */
  lemma TerminatorsOfPrefix(s: string, p: nat, q: nat)
    requires p + q <= |s| && AllTerminators(s[p..][..q])
    ensures AllTerminators(s[..p + q][p..])
  {
    var m := s[..p + q][p..];
    var t := s[p..][..q];
    forall k | 0 <= k < |m| ensures IsTerminator(m[k]) {
      assert m[k] == t[k];
    }
  }

  /** A string that starts with a non-terminator and holds a terminator has a
      non-empty plain run followed by a non-empty terminator run. */
  lemma RunsNonEmpty(s: string, p: nat, q: nat)
    requires s != [] && !IsTerminator(s[0])
    requires p == PlainRun(s) < |s| && q == TerminatorRun(s[p..])
    ensures 0 < p && 0 < q && p + q <= |s|
  {
    assert s[p..][0] == s[p];
  }

  lemma SentenceOf(m: string, p: nat)
    requires PlainRun(m) == p && 0 < p < |m| && AllTerminators(m[p..])
    ensures IsSentence(m)
  {
  }

  /** Cutting `s` after its first terminator keeps its terminator-free run. */
  lemma PlainRunOfPrefix(s: string, n: nat)
    requires PlainRun(s) < n <= |s|
    ensures PlainRun(s[..n]) == PlainRun(s)
  {
    var p := PlainRun(s);
    assert s[..n][..p] == s[..p];
    assert s[..n][p] == s[p];
    PlainRunIs(s[..n], p);
  }

  /** `PlainRun` is pinned down by its contract. */
  lemma {:induction false} PlainRunIs(s: string, n: nat)
    requires n <= |s| && NoTerminators(s[..n])
    requires n == |s| || IsTerminator(s[n])
    ensures PlainRun(s) == n
  {
    if n > 0 {
      assert s[..n][0] == s[0];
      assert s[1..][..n - 1] == s[..n][1..];
      PlainRunIs(s[1..], n - 1);
    }
  }

  lemma {:induction false} TerminatorRunIs(s: string, n: nat)
    requires n <= |s| && AllTerminators(s[..n])
    requires n == |s| || !IsTerminator(s[n])
    ensures TerminatorRun(s) == n
  {
    if n > 0 {
      assert s[..n][0] == s[0];
      assert s[1..][..n - 1] == s[..n][1..];
      TerminatorRunIs(s[1..], n - 1);
    }
  }

  function Concat(ms: seq<string>): string {
    if ms == [] then [] else ms[0] + Concat(ms[1..])
  }

  /** `s` reads as leading terminators, then whole sentences back to back, then a
      terminator-free tail: the way the global match carves up its input. */
  ghost predicate Carving(s: string, lead: string, ms: seq<string>, tail: string) {
    && s == lead + Concat(ms) + tail
    && AllTerminators(lead)
    && AllSentences(ms)
    && NoTerminators(tail)
  }

  lemma CarvingAfterTerminator(s: string, lead: string, ms: seq<string>, tail: string)
    requires s != [] && IsTerminator(s[0])
    requires Carving(s[1..], lead, ms, tail)
    ensures Carving(s, [s[0]] + lead, ms, tail)
  {
    assert s == [s[0]] + s[1..];
  }

  lemma CarvingAfterSentence(m: string, rest: string, ms: seq<string>, tail: string)
    requires IsSentence(m)
    requires Carving(rest, [], ms, tail)
    ensures Carving(m + rest, [], [m] + ms, tail)
  {
    assert ([m] + ms)[1..] == ms;
    assert Concat([m] + ms) == m + Concat(ms);
  }

  /** The terminators the global match skips before its first match. */
  function LeadOf(s: string): string {
    s[..TerminatorRun(s)]
  }

  /** The terminator-free remainder after the last match. */
  function Unmatched(s: string): string
    decreases |s|
  {
    if s == [] then []
    else if IsTerminator(s[0]) then Unmatched(s[1..])
    else if PlainRun(s) == |s| then s
    else Unmatched(s[MatchEnd(s)..])
  }

  /** Every input is carved this way by its own match list. */
  lemma {:induction false} SentencesCarve(s: string)
    ensures Carving(s, LeadOf(s), Sentences(s), Unmatched(s))
    decreases |s|
  {
    if s == [] {
      CarveEmpty(s);
    } else if IsTerminator(s[0]) {
      SentencesCarve(s[1..]);
      CarveSkipped(s);
    } else if PlainRun(s) == |s| {
      CarveUnfinished(s);
    } else {
      SentencesCarve(s[MatchEnd(s)..]);
      CarveMatched(s);
    }
  }

  lemma CarveEmpty(s: string)
    requires s == []
    ensures Carving(s, LeadOf(s), Sentences(s), Unmatched(s))
  {
    assert LeadOf(s) == [];
    assert s == [] + Concat([]) + [];
  }

  lemma CarveMatched(s: string)
    requires s != [] && !IsTerminator(s[0]) && PlainRun(s) < |s|
    requires var rest := s[MatchEnd(s)..];
      Carving(rest, LeadOf(rest), Sentences(rest), Unmatched(rest))
    ensures Carving(s, LeadOf(s), Sentences(s), Unmatched(s))
  {
    var e := MatchEnd(s);
    var rest := s[e..];
    MatchedStep(s);
    MatchIsSentence(s);
    CarvingAfterSentenceAt(s, e, Sentences(rest), Unmatched(rest));
  }

  lemma MatchIsSentence(s: string)
    requires s != [] && !IsTerminator(s[0]) && PlainRun(s) < |s|
    ensures IsSentence(s[..MatchEnd(s)])
  {
    var p := PlainRun(s);
    var q := TerminatorRun(s[p..]);
    assert MatchEnd(s) == p + q;
    SentenceShape(s, p, q);
  }

  lemma CarvingAfterSentenceAt(s: string, e: nat, ms: seq<string>, tail: string)
    requires e <= |s| && IsSentence(s[..e]) && Carving(s[e..], [], ms, tail)
    ensures Carving(s, [], [s[..e]] + ms, tail)
  {
    CarvingAfterSentence(s[..e], s[e..], ms, tail);
    assert s[..e] + s[e..] == s;
  }

  lemma CarveSkipped(s: string)
    requires s != [] && IsTerminator(s[0])
    requires Carving(s[1..], LeadOf(s[1..]), Sentences(s[1..]), Unmatched(s[1..]))
    ensures Carving(s, LeadOf(s), Sentences(s), Unmatched(s))
  {
    LeadOfSkipped(s);
    assert Sentences(s) == Sentences(s[1..]) && Unmatched(s) == Unmatched(s[1..]);
    CarvingAfterTerminator(s, LeadOf(s[1..]), Sentences(s[1..]), Unmatched(s[1..]));
  }

  lemma LeadOfSkipped(s: string)
    requires s != [] && IsTerminator(s[0])
    ensures LeadOf(s) == [s[0]] + LeadOf(s[1..])
  {
    assert TerminatorRun(s) == 1 + TerminatorRun(s[1..]);
  }

  lemma CarveUnfinished(s: string)
    requires s != [] && !IsTerminator(s[0]) && PlainRun(s) == |s|
    ensures Carving(s, LeadOf(s), Sentences(s), Unmatched(s))
  {
    assert s[..|s|] == s;
    assert LeadOf(s) == [];
    assert s == [] + Concat([]) + s;
  }

  /** One match split off the front: no lead before it, and the rest carries on. */
  lemma MatchedStep(s: string)
    requires s != [] && !IsTerminator(s[0]) && PlainRun(s) < |s|
    ensures LeadOf(s) == [] && LeadOf(s[MatchEnd(s)..]) == []
    ensures Sentences(s) == [s[..MatchEnd(s)]] + Sentences(s[MatchEnd(s)..])
    ensures Unmatched(s) == Unmatched(s[MatchEnd(s)..])
  {
    SentencesFront(s);
    NoLeadBeforePlain(s);
    AfterMatchPlain(s);
    NoLeadBeforePlain(s[MatchEnd(s)..]);
  }

  lemma SentencesFront(s: string)
    requires s != [] && !IsTerminator(s[0]) && PlainRun(s) < |s|
    ensures Sentences(s) == [s[..MatchEnd(s)]] + Sentences(s[MatchEnd(s)..])
  {
  }

  /** A match is never followed directly by a terminator: the terminator run is greedy. */
  lemma AfterMatchPlain(s: string)
    requires PlainRun(s) < |s|
    ensures var rest := s[MatchEnd(s)..]; rest == [] || !IsTerminator(rest[0])
  {
    var p := PlainRun(s);
    var q := TerminatorRun(s[p..]);
    if p + q < |s| {
      assert s[p + q..][0] == s[p..][q];
    }
  }

  lemma NoLeadBeforePlain(s: string)
    requires s == [] || !IsTerminator(s[0])
    ensures LeadOf(s) == []
  {
    assert TerminatorRun(s) == 0;
  }

  /** ... and by nothing else: any carving of `s` has `Sentences(s)` as its
      sentence list. Together with `SentencesCarve` this characterises the
      regular-expression matches independently of how they are computed. */
  lemma {:induction false} CarvingUnique(s: string, lead: string, ms: seq<string>, tail: string)
    requires Carving(s, lead, ms, tail)
    ensures ms == Sentences(s)
    decreases |s|
  {
    if lead != [] {
      assert s[0] == lead[0];
      assert s[1..] == lead[1..] + Concat(ms) + tail;
      CarvingUnique(s[1..], lead[1..], ms, tail);
    } else if ms == [] {
      assert s == tail;
      if s != [] {
        assert s[..|s|] == s;
        PlainRunIs(s, |s|);
      }
    } else {
      var m := ms[0];
      var after := Concat(ms[1..]) + tail;
      assert s == m + after;
      FirstSentenceOfCarving(m, after, ms[1..], tail);
      CarvingWithoutLead(after, ms[1..], tail);
      CarvingUnique(after, [], ms[1..], tail);
    }
  }

  /** Where a carving starts with a sentence `m`, `Sentences` splits off `m`. */
  lemma FirstSentenceOfCarving(m: string, after: string, ms: seq<string>, tail: string)
    requires IsSentence(m)
    requires after == Concat(ms) + tail
    requires AllSentences(ms)
    requires NoTerminators(tail)
    ensures Sentences(m + after) == [m] + Sentences(after)
  {
    var s := m + after;
    NextStartsPlain(ms, tail);
    MatchOfSentence(m, after);
    SentencesFront(s);
    assert s[..|m|] == m;
    assert s[|m|..] == after;
  }

  lemma CarvingWithoutLead(s: string, ms: seq<string>, tail: string)
    requires s == Concat(ms) + tail
    requires AllSentences(ms)
    requires NoTerminators(tail)
    ensures Carving(s, [], ms, tail)
  {
  }

  /** A sentence followed by anything that does not start with a terminator is
      exactly the first match. */
  lemma MatchOfSentence(m: string, after: string)
    requires IsSentence(m)
    requires after == [] || !IsTerminator(after[0])
    ensures var s := m + after;
      s != [] && !IsTerminator(s[0]) && PlainRun(s) < |s| && MatchEnd(s) == |m|
  {
    var s := m + after;
    var p := PlainRun(m);
    assert s[..p] == m[..p];
    PlainRunIs(s, p);
    assert s[0] == m[0];
    assert s[p..] == m[p..] + after;
    assert s[p..][..|m| - p] == m[p..];
    TerminatorRunIs(s[p..], |m| - p);
  }

  /** What follows a sentence in a carving never starts with a terminator. */
  lemma NextStartsPlain(ms: seq<string>, tail: string)
    requires AllSentences(ms)
    requires NoTerminators(tail)
    ensures var after := Concat(ms) + tail; after == [] || !IsTerminator(after[0])
  {
    if ms != [] {
      assert (Concat(ms) + tail)[0] == ms[0][0];
    }
  }

  function Join(parts: seq<string>, sep: string): string {
    if |parts| == 0 then []
    else if |parts| == 1 then parts[0]
    else parts[0] + sep + Join(parts[1..], sep)
  }

  function Min(a: int, b: int): int {
    if a <= b then a else b
  }

  /** `(matches || [message]).slice(0, 3).join(' ')`. */
  function Preview(message: string): (r: string)
    ensures Sentences(message) == [] ==> r == message
  {
    var found := Sentences(message);
    var parts := if found == [] then [message] else found;
    Join(parts[..Min(3, |parts|)], " ")
  }

  /** The preview in terms of a carving of the message: the whole message when
      it holds no complete sentence, otherwise its first three sentences joined
      by single spaces (each keeps its own leading blanks). */
  lemma PreviewOfCarving(message: string, lead: string, ms: seq<string>, tail: string)
    requires Carving(message, lead, ms, tail)
    ensures ms == [] ==> Preview(message) == message
    ensures ms != [] ==> Preview(message) == Join(ms[..Min(3, |ms|)], " ")
  {
    CarvingUnique(message, lead, ms, tail);
  }

  const THREAD_NAME_PROMPT: string :=
    "You are a thread naming assistant. Your task is to create a concise, descriptive title for a chat thread based on the user's message.\n\n"
    + "Rules:\n"
    + "1. The title must be 2-4 words long\n"
    + "2. Be descriptive but concise\n"
    + "3. Focus on the main topic or question\n"
    + "4. Use title case\n"
    + "5. Do not use punctuation\n"
    + "6. Only respond with the title, nothing else\n\n"
    + "User message:\n"

  /** The prompt the naming request sends: the fixed instruction, then the preview. */
  function NamingPrompt(message: string): (r: string)
    ensures |r| == |THREAD_NAME_PROMPT| + |Preview(message)|
    ensures r[..|THREAD_NAME_PROMPT|] == THREAD_NAME_PROMPT
    ensures r[|THREAD_NAME_PROMPT|..] == Preview(message)
  {
    THREAD_NAME_PROMPT + Preview(message)
  }

  /** The prompt carries the message's first three sentences of any carving,
      or the whole message when it has none. */
  lemma NamingPromptOfCarving(message: string, lead: string, ms: seq<string>, tail: string)
    requires Carving(message, lead, ms, tail)
    ensures NamingPrompt(message)
         == THREAD_NAME_PROMPT + (if ms == [] then message else Join(ms[..Min(3, |ms|)], " "))
  {
    PreviewOfCarving(message, lead, ms, tail);
    var r := NamingPrompt(message);
    assert r == r[..|THREAD_NAME_PROMPT|] + r[|THREAD_NAME_PROMPT|..];
  }

  /** What the language model did with the naming request: the strings it
      passed to the result callback, in order, and whether the call threw. */
  datatype NamingRun = NamingRun(results: seq<string>, threw: bool)

  /** The name `getThreadName` returns: the trimmed value of the LAST result
      callback, or "New Chat" when that is empty, there was none, or the call threw. */
  function ChooseName(run: NamingRun): (name: string)
    ensures GoodName(name)
    ensures name == NEW_CHAT
      || (!run.threw && |run.results| > 0 && name == Text.Trim(run.results[|run.results| - 1]))
  {
    if run.threw then NEW_CHAT
    else NameOrDefault(if run.results == [] then "" else run.results[|run.results| - 1])
  }

  /** Only the last callback matters: earlier results are overwritten, even
      when the last one trims to nothing. */
  lemma {:induction false} LastResultWins(a: seq<string>, b: seq<string>, x: string)
    ensures ChooseName(NamingRun(a + [x], false)) == ChooseName(NamingRun(b + [x], false))
    ensures Text.Trim(x) != [] ==> ChooseName(NamingRun(a + [x], false)) == Text.Trim(x)
    ensures Text.Trim(x) == [] ==> ChooseName(NamingRun(a + [x], false)) == NEW_CHAT
  {
    assert (a + [x])[|a + [x]| - 1] == x;
    assert (b + [x])[|b + [x]| - 1] == x;
  }
}

=== FILE: optional.dfy ===
/** The `T | null` fields of a stored chat message. */
module Optional {

  datatype Option<+T> = None | Some(value: T) {

    /** The wrapped value, or `default` when there is none (JavaScript's `x || default`
        for a value that is never falsy when present). */
    function GetOr(default: T): T {
      match this
      case Some(v) => v
      case None => default
    }
  }
}

=== FILE: session.dfy ===
/** The page component of app/page.tsx: its view state, the submit guard, the
    new-chat reset, thread selection, and one whole submission from guard to
    settlement. Clock readings, the naming call and the main language-model
    call are inputs: `Clock`, `NamingRun` and `MainRun`. */
module Session {
  import opened Optional
  import opened Chat
  import opened Streaming
  import ThreadNaming
  import Text

  /** The page's React state that the core reads or writes (token usage and
      the sidebar flag are left out). */
  datatype View = View(
    activeThreadId: Option<string>,
    userInput: string,
    result: Option<string>,
    codeOutput: Option<string>,
    explanation: Option<string>,
    hasError: bool,
    isStreaming: bool)

  datatype Outcome = Outcome(view: View, store: Store)

  /** The submit guard: the model is loaded, no stream is running, and the
      input is not blank. */
  function CanSubmit(v: View, modelLoaded: bool): (ok: bool)
    ensures ok <==> modelLoaded && !v.isStreaming && !Text.AllSpace(v.userInput)
  {
    Text.TrimEmptyIff(v.userInput);
    modelLoaded && !v.isStreaming && Text.Trim(v.userInput) != ""
  }

  /** `handleNewChat`: forget the active thread and clear what is shown. */
  function NewChat(v: View): (r: View)
    ensures r.activeThreadId.None? && r.userInput == ""
    ensures r.result.None? && r.codeOutput.None? && r.explanation.None? && !r.hasError
    ensures r.isStreaming == v.isStreaming
  {
    v.(activeThreadId := None, userInput := "", result := None, explanation := None,
       codeOutput := None, hasError := false)
  }

  /** `handleThreadSelect`: the id always becomes active; when the first thread
      with that id has messages, the view shows its last message. */
  function SelectThread(v: View, ts: seq<Thread>, id: string): (r: View)
    ensures r.activeThreadId == Some(id) && r.isStreaming == v.isStreaming
    ensures !HasLastMessage(ts, id) ==> r == v.(activeThreadId := Some(id))
    ensures HasLastMessage(ts, id) ==>
      var msgs := ts[FindThread(ts, id).value].messages;
      var last := msgs[|msgs| - 1];
      && r.userInput == ""
      && r.result == last.result && r.codeOutput == last.codeOutput
      && r.explanation == last.explanation && r.hasError == last.hasError
  {
    if !HasLastMessage(ts, id) then v.(activeThreadId := Some(id))
    else
      var msgs := ts[FindThread(ts, id).value].messages;
      var last := msgs[|msgs| - 1];
      View(Some(id), "", last.result, last.codeOutput, last.explanation, last.hasError, v.isStreaming)
  }

  /** Selecting a thread after a streaming write shows the value just written. */
  lemma SelectShowsLatestUpdate(v: View, ts: seq<Thread>, id: string, u: Update, policy: FlagPolicy)
    requires HasLastMessage(ts, id)
    ensures var r := SelectThread(v, ApplyUpdate(ts, id, u, policy), id);
      && (u.ResultUpdate? ==> r.result == Some(u.text))
      && (u.CodeOutputUpdate? ==> r.codeOutput == u.output)
      && (u.ExplanationUpdate? ==> r.explanation == u.explanation)
      && (u.ErrorUpdate? ==> r.hasError == u.isError)
  {
    FindThreadSameShape(ts, ApplyUpdate(ts, id, u, policy), id);
  }

  /** What a callback does to the page state (the first half of every
      callback; the stored write is `UpdateStep`). */
  function ApplyToView(v: View, u: Update): (r: View)
    ensures r.activeThreadId == v.activeThreadId && r.userInput == v.userInput
    ensures r.isStreaming == v.isStreaming
    ensures r.result == (if u.ResultUpdate? then Some(u.text) else v.result)
    ensures r.codeOutput == (if u.CodeOutputUpdate? then u.output else v.codeOutput)
    ensures r.explanation == (if u.ExplanationUpdate? then u.explanation else v.explanation)
    ensures r.hasError == (if u.ErrorUpdate? then u.isError else v.hasError)
  {
    match u
    case ResultUpdate(text) => v.(result := Some(text))
    case CodeOutputUpdate(output) => v.(codeOutput := output)
    case ExplanationUpdate(explanation) => v.(explanation := explanation)
    case ErrorUpdate(isError) => v.(hasError := isError)
    case UsageUpdate => v
  }

  /** The page shows exactly the four answer fields of message `m`. */
  predicate Shows(v: View, m: Message) {
    v.result == m.result && v.codeOutput == m.codeOutput
    && v.explanation == m.explanation && v.hasError == m.hasError
  }

  /** When the result callback leaves the stored flag alone, each callback
      writes the same value into the page and into the message, so a page that
      showed the message still shows it. */
  lemma ViewFollowsMessage(v: View, m: Message, u: Update)
    requires Shows(v, m)
    ensures Shows(ApplyToView(v, u), ApplyToMessage(m, u, Keep))
  {
  }

  /** The page's copy of an answer field. */
  function ViewFieldOf(v: View, f: Field): FieldValue {
    match f
    case ResultField => TextValue(v.result)
    case CodeOutputField => TextValue(v.codeOutput)
    case ExplanationField => TextValue(v.explanation)
    case ErrorField => FlagValue(v.hasError)
  }

  /** A callback sets exactly the page fields it writes; the page never takes
      the captured flag, so it writes as a message does under `Keep`. */
  lemma ViewWrites(v: View, u: Update, f: Field)
    ensures ViewFieldOf(ApplyToView(v, u), f)
         == if f in Writes(u, Keep) then Written(u, Keep, f) else ViewFieldOf(v, f)
  {
  }

  /** Feeds the callbacks, in order, to the page state and to storage. */
  function Stream(o: Outcome, id: string, policy: FlagPolicy, events: seq<Update>): (r: Outcome)
    ensures r.view.activeThreadId == o.view.activeThreadId && r.view.userInput == o.view.userInput
    ensures r.view.isStreaming == o.view.isStreaming
    ensures SameShape(Load(o.store), Load(r.store))
    ensures !HasLastMessage(Load(o.store), id) ==> r.store == o.store
    decreases |events|
  {
    if events == [] then o
    else
      var next := Outcome(ApplyToView(o.view, events[0]), UpdateStep(o.store, id, events[0], policy));
      Stream(next, id, policy, events[1..])
  }

  /** After any run of callbacks each answer field on the page holds what the
      last callback writing it set, or its old value when none did. */
  lemma {:induction false} StreamViewLastValue(o: Outcome, id: string, policy: FlagPolicy,
                                               events: seq<Update>, f: Field)
    ensures ViewFieldOf(Stream(o, id, policy, events).view, f)
         == LastValue(ViewFieldOf(o.view, f), events, Keep, f)
    decreases |events|
  {
    if events != [] {
      ViewWrites(o.view, events[0], f);
      var next := Outcome(ApplyToView(o.view, events[0]), UpdateStep(o.store, id, events[0], policy));
      StreamViewLastValue(next, id, policy, events[1..], f);
    }
  }

  /** One callback rewrites only the target's last message, to the message with
      the callback applied (the usage callback rewrites it to itself). */
  lemma UpdateStepIntoLast(st: Store, id: string, u: Update, policy: FlagPolicy)
    requires HasLastMessage(Load(st), id)
    ensures var ts := Load(st); var ts1 := Load(UpdateStep(st, id, u, policy));
      && FindThread(ts1, id) == FindThread(ts, id) && HasLastMessage(ts1, id)
      && LastMessageBecomes(ts, ts1, FindThread(ts, id).value, ApplyToMessage(StoredLast(ts, id), u, policy))
  {
    var ts := Load(st);
    FindThreadSameShape(ts, Load(UpdateStep(st, id, u, policy)), id);
  }

  /** The stored side of a run of callbacks: the target keeps its place and only
      its last message changes, to the pending message with every callback
      applied in order. */
  lemma {:induction false} StreamIntoLast(o: Outcome, id: string, policy: FlagPolicy, events: seq<Update>)
    requires HasLastMessage(Load(o.store), id)
    ensures var ts := Load(o.store); var rs := Load(Stream(o, id, policy, events).store);
      && FindThread(rs, id) == FindThread(ts, id) && HasLastMessage(rs, id)
      && LastMessageBecomes(ts, rs, FindThread(ts, id).value, FoldMessage(StoredLast(ts, id), events, policy))
      && StoredLast(rs, id) == FoldMessage(StoredLast(ts, id), events, policy)
    decreases |events|
  {
    if events == [] {
      StoredLastBecomes(Load(o.store), Load(o.store), id, StoredLast(Load(o.store), id));
    } else {
      var ts := Load(o.store);
      var u := events[0];
      var next := Outcome(ApplyToView(o.view, u), UpdateStep(o.store, id, u, policy));
      UpdateStepIntoLast(o.store, id, u, policy);
      StreamIntoLast(next, id, policy, events[1..]);
      var rs := Load(Stream(next, id, policy, events[1..]).store);
      LastMessageBecomesTwice(ts, Load(next.store), rs,
                              FindThread(ts, id).value, ApplyToMessage(StoredLast(ts, id), u, policy),
                              FoldMessage(StoredLast(ts, id), events, policy));
      StoredLastBecomes(ts, rs, id, FoldMessage(StoredLast(ts, id), events, policy));
    }
  }

  /** When the target keeps its place, the rewritten last message is the one
      a later lookup finds. */
  lemma StoredLastBecomes(ts: seq<Thread>, rs: seq<Thread>, id: string, m: Message)
    requires HasLastMessage(ts, id) && FindThread(rs, id) == FindThread(ts, id)
    requires LastMessageBecomes(ts, rs, FindThread(ts, id).value, m)
    ensures HasLastMessage(rs, id) && StoredLast(rs, id) == m
  {
  }

  /** What a run of callbacks leaves behind, for any callbacks: on the page and
      in the target's stored last message, every answer field holds what the
      last callback writing it set (for the stored flag, as `policy` says), or
      its old value when none did; the message's input and timestamp, the
      target's earlier messages and every other thread are unchanged. */
  lemma StreamLastWrite(o: Outcome, id: string, policy: FlagPolicy, events: seq<Update>, f: Field)
    requires HasLastMessage(Load(o.store), id)
    ensures var r := Stream(o, id, policy, events);
      var ts := Load(o.store); var rs := Load(r.store);
      && HasLastMessage(rs, id)
      && FieldOf(StoredLast(rs, id), f) == LastValue(FieldOf(StoredLast(ts, id), f), events, policy, f)
      && StoredLast(rs, id).userInput == StoredLast(ts, id).userInput
      && StoredLast(rs, id).timestamp == StoredLast(ts, id).timestamp
      && ViewFieldOf(r.view, f) == LastValue(ViewFieldOf(o.view, f), events, Keep, f)
      && LastMessageBecomes(ts, rs, FindThread(ts, id).value, FoldMessage(StoredLast(ts, id), events, policy))
  {
    StreamIntoLast(o, id, policy, events);
    FoldLastValue(StoredLast(Load(o.store), id), events, policy, f);
    StreamViewLastValue(o, id, policy, events, f);
  }

  /** Date.now() readings of one submission: the new thread's id (already turned
      into a string), its `lastUpdated`, the message timestamp, and the append time. */
  datatype Clock = Clock(threadId: string, createdAt: int, messageAt: int, appendedAt: int)

  /** The main language-model call: the callbacks it made, in order, and the
      message of the error it threw, if any. */
  datatype MainRun = MainRun(events: seq<Update>, failure: Option<string>)

  /** `!currentThreadId`: null and the empty string both start a new thread. */
  predicate NoActiveThread(active: Option<string>) {
    active.None? || active.value == ""
  }

  /** The thread a submission writes its message into. */
  function TargetId(v: View, clock: Clock): string {
    if NoActiveThread(v.activeThreadId) then clock.threadId else v.activeThreadId.value
  }

  /** The page state once the guard has passed: streaming, the previous
      answer cleared, and the target thread active. */
  function Started(v: View, clock: Clock): (r: View)
    ensures r.isStreaming && !r.hasError && r.activeThreadId == Some(TargetId(v, clock))
    ensures r.result == Some("") && r.explanation == Some("") && r.codeOutput.None?
    ensures r.userInput == v.userInput
  {
    v.(isStreaming := true, result := Some(""), explanation := Some(""), codeOutput := None,
       hasError := false, activeThreadId := Some(TargetId(v, clock)))
  }

  /** Storage once the thread exists (created, named, when none was active) and
      the pending message has been appended to it. */
  function Prepared(v: View, st: Store, clock: Clock, naming: ThreadNaming.NamingRun): (r: Store)
    ensures !NoActiveThread(v.activeThreadId) && FindThread(Load(st), v.activeThreadId.value).None?
      ==> r == st
    ensures |Load(r)| == |Load(st)| + (if NoActiveThread(v.activeThreadId) then 1 else 0)
  {
    var current := TargetId(v, clock);
    var st1 :=
      if NoActiveThread(v.activeThreadId)
      then CreateStep(st, current, ThreadNaming.ChooseName(naming), clock.createdAt)
      else st;
    AppendStep(st1, current, v.userInput, clock.messageAt, clock.appendedAt)
  }

  /** How the result callback treats the stored flag: as written it copies the
      `hasError` captured when the submission started. */
  function ResultPolicy(v: View, corrected: bool): FlagPolicy {
    if corrected then Keep else Overwrite(v.hasError)
  }

  /** The thread the catch path writes into: as written, the `activeThreadId`
      captured when the submission started. */
  function FailureTarget(v: View, clock: Clock, corrected: bool): Option<string> {
    if corrected then Some(TargetId(v, clock)) else v.activeThreadId
  }

  /** The catch path (when the call threw) and the `finally` clause. */
  function Settle(streamed: Outcome, failure: Option<string>, target: Option<string>): (r: Outcome)
    ensures !r.view.isStreaming
    ensures r.view.activeThreadId == streamed.view.activeThreadId && r.view.userInput == streamed.view.userInput
    ensures failure.None? ==> r.store == streamed.store && r.view == streamed.view.(isStreaming := false)
    ensures failure.Some? ==>
      && r.view == streamed.view.(hasError := true, result := failure, isStreaming := false)
      && Load(r.store) == RecordFailure(Load(streamed.store), target, failure.value)
  {
    match failure
    case None => streamed.(view := streamed.view.(isStreaming := false))
    case Some(error) =>
      Outcome(streamed.view.(hasError := true, result := Some(error), isStreaming := false),
              FailureStep(streamed.store, target, error))
  }

  /** One submission. `corrected` selects between the code as written (the
      result callback stores the error flag captured at submit time; the catch
      path looks the thread up by the captured `activeThreadId`) and the
      corrected behaviour (the result callback leaves the flag alone; the
      catch path uses the thread the message went into). */
  function Submission(v: View, modelLoaded: bool, st: Store, clock: Clock,
                      naming: ThreadNaming.NamingRun, run: MainRun, corrected: bool): (r: Outcome)
    ensures !CanSubmit(v, modelLoaded) ==> r == Outcome(v, st)
    ensures CanSubmit(v, modelLoaded) ==>
      && !r.view.isStreaming
      && r.view.activeThreadId == Some(TargetId(v, clock))
      && r.view.userInput == v.userInput
    ensures CanSubmit(v, modelLoaded) && run.failure.Some? ==>
      r.view.hasError && r.view.result == run.failure
    ensures |Load(r.store)| == |Load(st)| + (if CanSubmit(v, modelLoaded) && NoActiveThread(v.activeThreadId) then 1 else 0)
    ensures !NoActiveThread(v.activeThreadId) && FindThread(Load(st), v.activeThreadId.value).None? ==> r.store == st
  {
    if !CanSubmit(v, modelLoaded) then Outcome(v, st)
    else
      var streamed := Stream(Outcome(Started(v, clock), Prepared(v, st, clock, naming)),
                             TargetId(v, clock), ResultPolicy(v, corrected), run.events);
      Settle(streamed, run.failure, FailureTarget(v, clock, corrected))
  }

  /** `handleSubmit` as written. */
  function Submit(v: View, modelLoaded: bool, st: Store, clock: Clock,
                  naming: ThreadNaming.NamingRun, run: MainRun): (r: Outcome)
    ensures !CanSubmit(v, modelLoaded) ==> r == Outcome(v, st)
    ensures CanSubmit(v, modelLoaded) ==>
      && !r.view.isStreaming
      && r.view.activeThreadId == Some(TargetId(v, clock))
      && r.view.userInput == v.userInput
    ensures CanSubmit(v, modelLoaded) && run.failure.Some? ==> r.view.hasError && r.view.result == run.failure
    ensures |Load(r.store)| == |Load(st)| + (if CanSubmit(v, modelLoaded) && NoActiveThread(v.activeThreadId) then 1 else 0)
    ensures !NoActiveThread(v.activeThreadId) && FindThread(Load(st), v.activeThreadId.value).None? ==> r.store == st
  {
    Submission(v, modelLoaded, st, clock, naming, run, false)
  }

  /** `handleSubmit` with both corrections of the findings applied. */
  function SubmitCorrected(v: View, modelLoaded: bool, st: Store, clock: Clock,
                           naming: ThreadNaming.NamingRun, run: MainRun): (r: Outcome)
    ensures !CanSubmit(v, modelLoaded) ==> r == Outcome(v, st)
    ensures CanSubmit(v, modelLoaded) ==>
      && !r.view.isStreaming
      && r.view.activeThreadId == Some(TargetId(v, clock))
      && r.view.userInput == v.userInput
    ensures CanSubmit(v, modelLoaded) && run.failure.Some? ==> r.view.hasError && r.view.result == run.failure
    ensures |Load(r.store)| == |Load(st)| + (if CanSubmit(v, modelLoaded) && NoActiveThread(v.activeThreadId) then 1 else 0)
    ensures !NoActiveThread(v.activeThreadId) && FindThread(Load(st), v.activeThreadId.value).None? ==> r.store == st
  {
    Submission(v, modelLoaded, st, clock, naming, run, true)
  }

  // ---------------------------------------------------------------- properties

  /** The stages of a submission that passed the guard. */
  lemma SubmissionStages(v: View, modelLoaded: bool, st: Store, clock: Clock,
                         naming: ThreadNaming.NamingRun, run: MainRun, corrected: bool)
    requires CanSubmit(v, modelLoaded)
    ensures Submission(v, modelLoaded, st, clock, naming, run, corrected)
         == Settle(Stream(Outcome(Started(v, clock), Prepared(v, st, clock, naming)),
                          TargetId(v, clock), ResultPolicy(v, corrected), run.events),
                   run.failure, FailureTarget(v, clock, corrected))
  {
  }

  /** After preparation the target thread exists and ends with the pending
      message. */
  lemma PreparedHasPending(v: View, st: Store, clock: Clock, naming: ThreadNaming.NamingRun)
    requires NoActiveThread(v.activeThreadId) || FindThread(Load(st), v.activeThreadId.value).Some?
    ensures HasLastMessage(Load(Prepared(v, st, clock, naming)), TargetId(v, clock))
    ensures StoredLast(Load(Prepared(v, st, clock, naming)), TargetId(v, clock))
         == PendingMessage(v.userInput, clock.messageAt)
  {
    var current := TargetId(v, clock);
    var ts1 :=
      if NoActiveThread(v.activeThreadId)
      then CreateThread(Load(st), current, ThreadNaming.ChooseName(naming), clock.createdAt)
      else Load(st);
    assert FindThread(ts1, current).Some?;
    AppendLeavesPending(ts1, current, v.userInput, clock.messageAt, clock.appendedAt);
  }

  /** Streaming never breaks the stored invariant. */
  lemma {:induction false} StreamKeepsWellFormed(o: Outcome, id: string, policy: FlagPolicy, events: seq<Update>)
    requires WellFormed(Load(o.store))
    ensures WellFormed(Load(Stream(o, id, policy, events).store))
    decreases |events|
  {
    if events != [] {
      var u := events[0];
      if !u.UsageUpdate? {
        UpdateKeepsWellFormed(Load(o.store), id, u, policy);
      }
      var next := Outcome(ApplyToView(o.view, u), UpdateStep(o.store, id, u, policy));
      StreamKeepsWellFormed(next, id, policy, events[1..]);
    }
  }

  /** A whole submission keeps the stored collection well formed, provided the
      clock gives a new thread an id not already stored. */
  lemma SubmissionKeepsWellFormed(v: View, modelLoaded: bool, st: Store, clock: Clock,
                                  naming: ThreadNaming.NamingRun, run: MainRun, corrected: bool)
    requires WellFormed(Load(st))
    requires NoActiveThread(v.activeThreadId) ==> forall k :: 0 <= k < |Load(st)| ==> Load(st)[k].id != clock.threadId
    ensures WellFormed(Load(Submission(v, modelLoaded, st, clock, naming, run, corrected).store))
  {
    if CanSubmit(v, modelLoaded) {
      SubmissionStages(v, modelLoaded, st, clock, naming, run, corrected);
      var current := TargetId(v, clock);
      var ts1 :=
        if NoActiveThread(v.activeThreadId)
        then CreateThread(Load(st), current, ThreadNaming.ChooseName(naming), clock.createdAt)
        else Load(st);
      if NoActiveThread(v.activeThreadId) {
        CreateKeepsWellFormed(Load(st), current, ThreadNaming.ChooseName(naming), clock.createdAt);
      }
      Text.TrimEmptyIff(v.userInput);
      AppendKeepsWellFormed(ts1, current, v.userInput, clock.messageAt, clock.appendedAt);
      var o := Outcome(Started(v, clock), Prepared(v, st, clock, naming));
      StreamKeepsWellFormed(o, current, ResultPolicy(v, corrected), run.events);
      if run.failure.Some? {
        var streamed := Stream(o, current, ResultPolicy(v, corrected), run.events);
        FailureKeepsWellFormed(Load(streamed.store), FailureTarget(v, clock, corrected), run.failure.value);
      }
    }
  }

  /** `r` holds, position by position, the threads of `ts` whose id is not
      `except`. */
  ghost predicate KeepsOthers(ts: seq<Thread>, r: seq<Thread>, except: Option<string>) {
    |r| == |ts| && forall k :: 0 <= k < |ts| && Some(ts[k].id) != except ==> r[k] == ts[k]
  }

  /** `r` holds the threads of `ts` `off` places further back, except those
      with id `id` or the id in `target`. */
  ghost predicate KeptBehind(ts: seq<Thread>, r: seq<Thread>, off: nat, id: string, target: Option<string>) {
    && |r| == |ts| + off
    && forall k :: 0 <= k < |ts| && ts[k].id != id && Some(ts[k].id) != target ==> r[k + off] == ts[k]
  }

  /** A new chat's preparation keeps every stored thread, one place back. */
  lemma PreparedKeepsNew(v: View, st: Store, clock: Clock, naming: ThreadNaming.NamingRun)
    requires NoActiveThread(v.activeThreadId)
    ensures KeptBehind(Load(st), Load(Prepared(v, st, clock, naming)), 1, TargetId(v, clock), None)
  {
    PreparedNewThread(v, st, clock, naming);
  }

  /** Preparation for an active id keeps every stored thread with another id. */
  lemma PreparedKeepsActive(v: View, st: Store, clock: Clock, naming: ThreadNaming.NamingRun)
    requires !NoActiveThread(v.activeThreadId)
    ensures KeptBehind(Load(st), Load(Prepared(v, st, clock, naming)), 0, TargetId(v, clock), None)
  {
    assert Load(Prepared(v, st, clock, naming))
        == AppendPending(Load(st), v.activeThreadId.value, v.userInput, clock.messageAt, clock.appendedAt);
    AppendKeepsOthers(Load(st), v.activeThreadId.value, v.userInput, clock.messageAt, clock.appendedAt);
  }

  /** Rewriting one last message keeps every thread with another id. */
  lemma LastMessageKeeps(ts: seq<Thread>, r: seq<Thread>, i: nat, m: Message)
    requires i < |ts| && |ts[i].messages| > 0 && LastMessageBecomes(ts, r, i, m)
    ensures KeepsOthers(ts, r, Some(ts[i].id))
  {
  }

  /** A run of callbacks keeps every thread with another id. */
  lemma StreamKeepsOthers(o: Outcome, id: string, policy: FlagPolicy, events: seq<Update>)
    ensures KeepsOthers(Load(o.store), Load(Stream(o, id, policy, events).store), Some(id))
  {
    var ts := Load(o.store);
    if HasLastMessage(ts, id) {
      StreamIntoLast(o, id, policy, events);
      LastMessageKeeps(ts, Load(Stream(o, id, policy, events).store), FindThread(ts, id).value,
                       FoldMessage(StoredLast(ts, id), events, policy));
    }
  }

  /** The catch path keeps every thread it does not look up. */
  lemma SettleKeeps(streamed: Outcome, failure: Option<string>, target: Option<string>)
    ensures KeepsOthers(Load(streamed.store), Load(Settle(streamed, failure, target).store), target)
  {
  }

  /** The catch path rewrites the target's last message exactly when it looks
      the target up; otherwise the target's last message is left alone. */
  lemma SettleTarget(streamed: Outcome, failure: Option<string>, target: Option<string>, id: string)
    requires HasLastMessage(Load(streamed.store), id)
    ensures var ts := Load(streamed.store); var rs := Load(Settle(streamed, failure, target).store);
      && HasLastMessage(rs, id)
      && StoredLast(rs, id)
         == if failure.Some? && target == Some(id)
            then StoredLast(ts, id).(hasError := true, result := failure)
            else StoredLast(ts, id)
  {
    if failure.Some? {
      FailureIntoLast(Load(streamed.store), target, failure.value, id);
    }
  }

  /** The failure write reaches the last message of `id` exactly when it looks
      `id` up. */
  lemma FailureIntoLast(ts: seq<Thread>, target: Option<string>, error: string, id: string)
    requires HasLastMessage(ts, id)
    ensures var rs := RecordFailure(ts, target, error);
      && HasLastMessage(rs, id)
      && StoredLast(rs, id)
         == if target == Some(id) then StoredLast(ts, id).(hasError := true, result := Some(error))
            else StoredLast(ts, id)
  {
    var rs := RecordFailure(ts, target, error);
    if target == Some(id) {
      FailureIntoOwnLast(ts, error, id);
    } else if target.Some? && HasLastMessage(ts, target.value) {
      var j := FindThread(ts, target.value).value;
      var last := ts[j].messages[|ts[j].messages| - 1];
      LastKeptElsewhere(ts, rs, j, last.(hasError := true, result := Some(error)), id);
    }
  }

  /** The failure write into the thread it looks up. */
  lemma FailureIntoOwnLast(ts: seq<Thread>, error: string, id: string)
    requires HasLastMessage(ts, id)
    ensures var rs := RecordFailure(ts, Some(id), error);
      HasLastMessage(rs, id) && StoredLast(rs, id) == StoredLast(ts, id).(hasError := true, result := Some(error))
  {
    var rs := RecordFailure(ts, Some(id), error);
    FindThreadSameShape(ts, rs, id);
    StoredLastBecomes(ts, rs, id, StoredLast(ts, id).(hasError := true, result := Some(error)));
  }

  /** Rewriting the last message of another thread leaves the last message of
      `id` where it was. */
  lemma LastKeptElsewhere(ts: seq<Thread>, rs: seq<Thread>, j: nat, m: Message, id: string)
    requires j < |ts| && |ts[j].messages| > 0 && LastMessageBecomes(ts, rs, j, m)
    requires SameShape(ts, rs) && HasLastMessage(ts, id) && ts[j].id != id
    ensures HasLastMessage(rs, id) && StoredLast(rs, id) == StoredLast(ts, id)
  {
    FindThreadSameShape(ts, rs, id);
    assert rs[FindThread(ts, id).value] == ts[FindThread(ts, id).value];
  }

  /** Threads kept by each stage of a submission are kept by the whole of it. */
  lemma ChainKeeps(ts: seq<Thread>, p: seq<Thread>, s: seq<Thread>, r: seq<Thread>, off: nat,
                   id: string, target: Option<string>)
    requires KeptBehind(ts, p, off, id, None)
    requires KeepsOthers(p, s, Some(id)) && KeepsOthers(s, r, target)
    ensures KeptBehind(ts, r, off, id, target)
  {
    forall k | 0 <= k < |ts| && ts[k].id != id && Some(ts[k].id) != target
      ensures r[k + off] == ts[k]
    {
      assert p[k + off] == ts[k];
      assert s[k + off] == p[k + off];
    }
  }

  /** The value field `f` of the submitted message ends with: the thrown error
      (result, and the flag set) when the catch path reaches the target;
      otherwise what the last callback writing `f` set under the run's policy;
      otherwise the null or false the message was appended with. */
  function SubmittedValue(v: View, clock: Clock, run: MainRun, corrected: bool, f: Field): FieldValue {
    var appended := if f == ErrorField then FlagValue(false) else TextValue(None);
    if run.failure.Some? && FailureTarget(v, clock, corrected) == Some(TargetId(v, clock)) && f == ResultField
    then TextValue(run.failure)
    else if run.failure.Some? && FailureTarget(v, clock, corrected) == Some(TargetId(v, clock)) && f == ErrorField
    then FlagValue(true)
    else LastValue(appended, run.events, ResultPolicy(v, corrected), f)
  }

  /** The catch path's effect on the target's last message, field by field. */
  lemma SettledField(streamed: Outcome, failure: Option<string>, target: Option<string>, id: string,
                     m: Message, events: seq<Update>, policy: FlagPolicy, f: Field)
    requires HasLastMessage(Load(streamed.store), id)
    requires StoredLast(Load(streamed.store), id) == FoldMessage(m, events, policy)
    ensures var rs := Load(Settle(streamed, failure, target).store);
      && HasLastMessage(rs, id)
      && StoredLast(rs, id).userInput == m.userInput && StoredLast(rs, id).timestamp == m.timestamp
      && FieldOf(StoredLast(rs, id), f)
         == if failure.Some? && target == Some(id) && f == ResultField then TextValue(failure)
            else if failure.Some? && target == Some(id) && f == ErrorField then FlagValue(true)
            else LastValue(FieldOf(m, f), events, policy, f)
  {
    SettleTarget(streamed, failure, target, id);
    FoldLastValue(m, events, policy, f);
  }

  /** The stored effect of a submission that passed the guard, for any
      callbacks and any failure. When the target is new or stored, its last
      message carries the trimmed input and the message timestamp, and each
      answer field holds `SubmittedValue`. Every other stored thread (other
      than one the catch path looks up) is kept, behind the new thread when
      one was created. When the active id is not stored, storage is left as
      it was. */
  lemma SubmissionStores(v: View, modelLoaded: bool, st: Store, clock: Clock,
                         naming: ThreadNaming.NamingRun, run: MainRun, corrected: bool, f: Field)
    requires CanSubmit(v, modelLoaded)
    ensures var r := Submission(v, modelLoaded, st, clock, naming, run, corrected);
      var id := TargetId(v, clock); var ts := Load(st); var rs := Load(r.store);
      && KeptBehind(ts, rs, if NoActiveThread(v.activeThreadId) then 1 else 0, id, FailureTarget(v, clock, corrected))
      && (!NoActiveThread(v.activeThreadId) && FindThread(ts, id).None? ==> r.store == st)
      && (NoActiveThread(v.activeThreadId) || FindThread(ts, id).Some? ==>
            && HasLastMessage(rs, id)
            && StoredLast(rs, id).userInput == Text.Trim(v.userInput)
            && StoredLast(rs, id).timestamp == clock.messageAt
            && FieldOf(StoredLast(rs, id), f) == SubmittedValue(v, clock, run, corrected, f))
  {
    SubmissionKeeps(v, modelLoaded, st, clock, naming, run, corrected);
    if NoActiveThread(v.activeThreadId) || FindThread(Load(st), TargetId(v, clock)).Some? {
      SubmissionTarget(v, modelLoaded, st, clock, naming, run, corrected, f);
    }
  }

  /** The threads-kept half of `SubmissionStores`. */
  lemma SubmissionKeeps(v: View, modelLoaded: bool, st: Store, clock: Clock,
                        naming: ThreadNaming.NamingRun, run: MainRun, corrected: bool)
    requires CanSubmit(v, modelLoaded)
    ensures KeptBehind(Load(st), Load(Submission(v, modelLoaded, st, clock, naming, run, corrected).store),
                       if NoActiveThread(v.activeThreadId) then 1 else 0, TargetId(v, clock),
                       FailureTarget(v, clock, corrected))
  {
    SubmissionStages(v, modelLoaded, st, clock, naming, run, corrected);
    if NoActiveThread(v.activeThreadId) {
      StagesKeep(v, st, clock, naming, run, corrected, 1);
    } else {
      StagesKeep(v, st, clock, naming, run, corrected, 0);
    }
  }

  /** The stages after the guard keep every thread that neither the target
      id nor the catch path's lookup names. */
  lemma StagesKeep(v: View, st: Store, clock: Clock, naming: ThreadNaming.NamingRun, run: MainRun,
                   corrected: bool, off: nat)
    requires off == if NoActiveThread(v.activeThreadId) then 1 else 0
    ensures var id := TargetId(v, clock); var target := FailureTarget(v, clock, corrected);
      var streamed := Stream(Outcome(Started(v, clock), Prepared(v, st, clock, naming)), id,
                             ResultPolicy(v, corrected), run.events);
      KeptBehind(Load(st), Load(Settle(streamed, run.failure, target).store), off, id, target)
  {
    var id := TargetId(v, clock);
    var target := FailureTarget(v, clock, corrected);
    var o := Outcome(Started(v, clock), Prepared(v, st, clock, naming));
    var streamed := Stream(o, id, ResultPolicy(v, corrected), run.events);
    var settled := Settle(streamed, run.failure, target);
    StreamKeepsOthers(o, id, ResultPolicy(v, corrected), run.events);
    SettleKeeps(streamed, run.failure, target);
    if off == 1 {
      PreparedKeepsNew(v, st, clock, naming);
    } else {
      PreparedKeepsActive(v, st, clock, naming);
    }
    ChainKeeps(Load(st), Load(o.store), Load(streamed.store), Load(settled.store), off, id, target);
  }

  /** The target-message half of `SubmissionStores`. */
  lemma SubmissionTarget(v: View, modelLoaded: bool, st: Store, clock: Clock,
                         naming: ThreadNaming.NamingRun, run: MainRun, corrected: bool, f: Field)
    requires CanSubmit(v, modelLoaded)
    requires NoActiveThread(v.activeThreadId) || FindThread(Load(st), TargetId(v, clock)).Some?
    ensures var rs := Load(Submission(v, modelLoaded, st, clock, naming, run, corrected).store);
      var id := TargetId(v, clock);
      && HasLastMessage(rs, id)
      && StoredLast(rs, id).userInput == Text.Trim(v.userInput)
      && StoredLast(rs, id).timestamp == clock.messageAt
      && FieldOf(StoredLast(rs, id), f) == SubmittedValue(v, clock, run, corrected, f)
  {
    var id := TargetId(v, clock);
    var policy := ResultPolicy(v, corrected);
    var target := FailureTarget(v, clock, corrected);
    var pending := PendingMessage(v.userInput, clock.messageAt);
    var prepared := Prepared(v, st, clock, naming);
    var o := Outcome(Started(v, clock), prepared);
    var streamed := Stream(o, id, policy, run.events);
    SubmissionStages(v, modelLoaded, st, clock, naming, run, corrected);
    assert Submission(v, modelLoaded, st, clock, naming, run, corrected) == Settle(streamed, run.failure, target);
    PreparedHasPending(v, st, clock, naming);
    StreamIntoLast(o, id, policy, run.events);
    SettledField(streamed, run.failure, target, id, pending, run.events, policy, f);
  }

  /** A callback writing into a single-message thread at the front of storage. */
  lemma UpdateFront(st: Store, id: string, name: string, m: Message, at: int, rest: seq<Thread>,
                    u: Update, policy: FlagPolicy)
    requires Load(st) == [Thread(id, name, [m], at)] + rest
    requires !u.UsageUpdate?
    ensures Load(UpdateStep(st, id, u, policy)) == [Thread(id, name, [ApplyToMessage(m, u, policy)], at)] + rest
  {
    var ts := Load(st);
    assert FindThread(ts, id) == Some(0);
    var r := ApplyUpdate(ts, id, u, policy);
    assert r[0] == Thread(id, name, [ApplyToMessage(m, u, policy)], at);
    assert r[1..] == rest by {
      forall k | 0 <= k < |rest| ensures r[1..][k] == rest[k] {
        assert r[k + 1] == ts[k + 1];
      }
    }
    assert r == [r[0]] + r[1..];
  }

  /** Preparing a submission with no active thread puts one new thread, holding
      only the pending message, in front of the stored collection. */
  lemma PreparedNewThread(v: View, st: Store, clock: Clock, naming: ThreadNaming.NamingRun)
    requires NoActiveThread(v.activeThreadId)
    ensures Load(Prepared(v, st, clock, naming))
         == [Thread(clock.threadId, ThreadNaming.ChooseName(naming),
                    [PendingMessage(v.userInput, clock.messageAt)], clock.appendedAt)] + Load(st)
  {
    AppendToCreated(Load(st), clock.threadId, ThreadNaming.ChooseName(naming), clock.createdAt,
                    v.userInput, clock.messageAt, clock.appendedAt);
  }

  /** Three callbacks into a single-message thread at the front of storage. */
  lemma StreamThreeIntoFront(o: Outcome, id: string, name: string, m: Message, at: int,
                             rest: seq<Thread>, e1: Update, e2: Update, e3: Update, policy: FlagPolicy)
    requires Load(o.store) == [Thread(id, name, [m], at)] + rest
    requires !e1.UsageUpdate? && !e2.UsageUpdate? && !e3.UsageUpdate?
    ensures var r := Stream(o, id, policy, [e1, e2, e3]);
      var m' := ApplyToMessage(ApplyToMessage(ApplyToMessage(m, e1, policy), e2, policy), e3, policy);
      && Load(r.store) == [Thread(id, name, [m'], at)] + rest
      && r.view == ApplyToView(ApplyToView(ApplyToView(o.view, e1), e2), e3)
  {
    var o2 := Outcome(ApplyToView(o.view, e1), UpdateStep(o.store, id, e1, policy));
    var o3 := Outcome(ApplyToView(o2.view, e2), UpdateStep(o2.store, id, e2, policy));
    var o4 := Outcome(ApplyToView(o3.view, e3), UpdateStep(o3.store, id, e3, policy));
    var m1 := ApplyToMessage(m, e1, policy);
    var m2 := ApplyToMessage(m1, e2, policy);
    UpdateFront(o.store, id, name, m, at, rest, e1, policy);
    UpdateFront(o2.store, id, name, m1, at, rest, e2, policy);
    UpdateFront(o3.store, id, name, m2, at, rest, e3, policy);
    var events := [e1, e2, e3];
    assert events[1..] == [e2, e3] && events[1..][1..] == [e3] && events[1..][1..][1..] == [];
    assert Stream(o, id, policy, events) == Stream(o2, id, policy, [e2, e3]);
    assert Stream(o2, id, policy, [e2, e3]) == Stream(o3, id, policy, [e3]);
    assert Stream(o3, id, policy, [e3]) == Stream(o4, id, policy, []);
  }

  /** The first message of a new chat (no thread active), answered by a result,
      a code output and an explanation callback and no error: one new thread in
      front, holding exactly one message with the trimmed input and the
      streamed values, and the page shows them. */
  lemma FirstMessageAnswered(v: View, modelLoaded: bool, st: Store, clock: Clock,
                             naming: ThreadNaming.NamingRun, result: string,
                             code: Option<string>, explanation: Option<string>)
    requires CanSubmit(v, modelLoaded) && v.activeThreadId.None? && !v.hasError
    ensures var r := Submit(v, modelLoaded, st, clock, naming,
                            MainRun([ResultUpdate(result), CodeOutputUpdate(code), ExplanationUpdate(explanation)], None));
      && Load(r.store)
         == [Thread(clock.threadId, ThreadNaming.ChooseName(naming),
                    [Message(Text.Trim(v.userInput), Some(result), code, explanation, false, clock.messageAt)],
                    clock.appendedAt)]
            + Load(st)
      && r.view.result == Some(result) && r.view.codeOutput == code
      && r.view.explanation == explanation && !r.view.hasError
  {
    SubmissionStages(v, modelLoaded, st, clock, naming,
                     MainRun([ResultUpdate(result), CodeOutputUpdate(code), ExplanationUpdate(explanation)], None), false);
    PreparedNewThread(v, st, clock, naming);
    StreamThreeIntoFront(Outcome(Started(v, clock), Prepared(v, st, clock, naming)), clock.threadId,
                         ThreadNaming.ChooseName(naming), PendingMessage(v.userInput, clock.messageAt),
                         clock.appendedAt, Load(st),
                         ResultUpdate(result), CodeOutputUpdate(code), ExplanationUpdate(explanation),
                         Overwrite(false));
  }

  // ---------------------------------------------------------------- findings

  /** As written, the result callback stores the `hasError` captured when the
      submission started. After an errored answer the next answer in the same
      thread is stored as errored while the page shows it as clean. */
  lemma StaleErrorFlagStored(v: View, modelLoaded: bool, st: Store, clock: Clock,
                             naming: ThreadNaming.NamingRun, text: string)
    requires CanSubmit(v, modelLoaded) && v.hasError
    requires v.activeThreadId.Some? && v.activeThreadId.value != ""
    requires FindThread(Load(st), v.activeThreadId.value).Some?
    ensures var r := Submit(v, modelLoaded, st, clock, naming, MainRun([ResultUpdate(text)], None));
      var id := v.activeThreadId.value;
      && HasLastMessage(Load(r.store), id)
      && StoredLast(Load(r.store), id).hasError
      && !r.view.hasError
  {
    var run := MainRun([ResultUpdate(text)], None);
    SubmissionStages(v, modelLoaded, st, clock, naming, run, false);
    PreparedHasPending(v, st, clock, naming);
    StreamOneResult(Outcome(Started(v, clock), Prepared(v, st, clock, naming)),
                    v.activeThreadId.value, text, true);
  }

  /** A single result callback under the as-written policy stores the captured flag. */
  lemma StreamOneResult(o: Outcome, id: string, text: string, flag: bool)
    requires HasLastMessage(Load(o.store), id)
    ensures var r := Stream(o, id, Overwrite(flag), [ResultUpdate(text)]);
      && HasLastMessage(Load(r.store), id)
      && StoredLast(Load(r.store), id).hasError == flag
      && r.view.hasError == o.view.hasError
  {
    var u := ResultUpdate(text);
    var o2 := Outcome(ApplyToView(o.view, u), UpdateStep(o.store, id, u, Overwrite(flag)));
    assert [u][1..] == [];
    assert Stream(o, id, Overwrite(flag), [u]) == o2;
    FindThreadSameShape(Load(o.store), Load(o2.store), id);
  }

  /** One callback under the corrected policy keeps the stored flag of the
      target's last message equal to the flag the page shows. */
  lemma UpdateMirrorsFlag(o: Outcome, id: string, u: Update)
    requires HasLastMessage(Load(o.store), id)
    requires StoredLast(Load(o.store), id).hasError == o.view.hasError
    ensures var r := Outcome(ApplyToView(o.view, u), UpdateStep(o.store, id, u, Keep));
      && HasLastMessage(Load(r.store), id)
      && StoredLast(Load(r.store), id).hasError == r.view.hasError
  {
    var r := UpdateStep(o.store, id, u, Keep);
    FindThreadSameShape(Load(o.store), Load(r), id);
  }

  lemma {:induction false} StreamMirrorsFlag(o: Outcome, id: string, events: seq<Update>)
    requires HasLastMessage(Load(o.store), id)
    requires StoredLast(Load(o.store), id).hasError == o.view.hasError
    ensures var r := Stream(o, id, Keep, events);
      && HasLastMessage(Load(r.store), id)
      && StoredLast(Load(r.store), id).hasError == r.view.hasError
    decreases |events|
  {
    if events != [] {
      UpdateMirrorsFlag(o, id, events[0]);
      StreamMirrorsFlag(Outcome(ApplyToView(o.view, events[0]), UpdateStep(o.store, id, events[0], Keep)),
                        id, events[1..]);
    }
  }

  /** With both corrections, whatever the callbacks and whether or not the call
      throws, the stored flag of the new message equals the flag the page
      shows, and a thrown error is stored as the message's result. */
  lemma CorrectedFlagMatchesView(v: View, modelLoaded: bool, st: Store, clock: Clock,
                                 naming: ThreadNaming.NamingRun, run: MainRun)
    requires CanSubmit(v, modelLoaded)
    requires NoActiveThread(v.activeThreadId) || FindThread(Load(st), v.activeThreadId.value).Some?
    ensures var r := SubmitCorrected(v, modelLoaded, st, clock, naming, run);
      var id := TargetId(v, clock);
      && HasLastMessage(Load(r.store), id)
      && StoredLast(Load(r.store), id).hasError == r.view.hasError
      && (run.failure.Some? ==> StoredLast(Load(r.store), id).result == run.failure)
  {
    var id := TargetId(v, clock);
    SubmissionStages(v, modelLoaded, st, clock, naming, run, true);
    PreparedHasPending(v, st, clock, naming);
    var o := Outcome(Started(v, clock), Prepared(v, st, clock, naming));
    StreamMirrorsFlag(o, id, run.events);
    SettleMirrorsFlag(Stream(o, id, Keep, run.events), run.failure, id);
  }

  /** The corrected catch path writes the flag and the message the page shows
      into the thread the message went into. */
  lemma SettleMirrorsFlag(streamed: Outcome, failure: Option<string>, id: string)
    requires HasLastMessage(Load(streamed.store), id)
    requires StoredLast(Load(streamed.store), id).hasError == streamed.view.hasError
    ensures var r := Settle(streamed, failure, Some(id));
      && HasLastMessage(Load(r.store), id)
      && StoredLast(Load(r.store), id).hasError == r.view.hasError
      && (failure.Some? ==> StoredLast(Load(r.store), id).result == failure)
  {
    if failure.Some? {
      var ts := Load(streamed.store);
      FindThreadSameShape(ts, RecordFailure(ts, Some(id), failure.value), id);
    }
  }

  /** As written, the catch path looks the thread up by the id that was active
      when the submission started. For a submission that created its thread
      that id is null, so the thrown error never reaches storage: the new
      thread keeps its pending message while the page shows the error. */
  lemma NewThreadFailureLost(v: View, modelLoaded: bool, st: Store, clock: Clock,
                             naming: ThreadNaming.NamingRun, error: string)
    requires CanSubmit(v, modelLoaded) && v.activeThreadId.None?
    ensures var r := Submit(v, modelLoaded, st, clock, naming, MainRun([], Some(error)));
      && Load(r.store)
         == [Thread(clock.threadId, ThreadNaming.ChooseName(naming),
                    [Message(Text.Trim(v.userInput), None, None, None, false, clock.messageAt)],
                    clock.appendedAt)]
            + Load(st)
      && r.view.hasError && r.view.result == Some(error)
  {
    SubmissionStages(v, modelLoaded, st, clock, naming, MainRun([], Some(error)), false);
    PreparedNewThread(v, st, clock, naming);
  }

  /** The failure write into a single-message thread at the front of storage. */
  lemma FailureFront(st: Store, id: string, name: string, m: Message, at: int, rest: seq<Thread>,
                     error: string)
    requires Load(st) == [Thread(id, name, [m], at)] + rest
    ensures Load(FailureStep(st, Some(id), error))
         == [Thread(id, name, [m.(hasError := true, result := Some(error))], at)] + rest
  {
    var ts := Load(st);
    assert FindThread(ts, id) == Some(0);
    var r := RecordFailure(ts, Some(id), error);
    assert r[1..] == rest by {
      forall k | 0 <= k < |rest| ensures r[1..][k] == rest[k] {
        assert r[k + 1] == ts[k + 1];
      }
    }
    FrontAndRest(r, Thread(id, name, [m.(hasError := true, result := Some(error))], at), rest);
  }

  /** With the correction, the same failure is stored on the new thread. */
  lemma NewThreadFailureRecorded(v: View, modelLoaded: bool, st: Store, clock: Clock,
                                 naming: ThreadNaming.NamingRun, error: string)
    requires CanSubmit(v, modelLoaded) && v.activeThreadId.None?
    ensures var r := SubmitCorrected(v, modelLoaded, st, clock, naming, MainRun([], Some(error)));
      && Load(r.store)
         == [Thread(clock.threadId, ThreadNaming.ChooseName(naming),
                    [Message(Text.Trim(v.userInput), Some(error), None, None, true, clock.messageAt)],
                    clock.appendedAt)]
            + Load(st)
      && r.view.hasError && r.view.result == Some(error)
  {
    SubmissionStages(v, modelLoaded, st, clock, naming, MainRun([], Some(error)), true);
    PreparedNewThread(v, st, clock, naming);
    FailureFront(Prepared(v, st, clock, naming), clock.threadId, ThreadNaming.ChooseName(naming),
                 PendingMessage(v.userInput, clock.messageAt), clock.appendedAt, Load(st), error);
  }
}

=== FILE: streaming.dfy ===
/** The write path of app/page.tsx `handleSubmit`: creating a thread, appending
    the pending message, the per-field streaming callbacks and the failure write.
    Each is a pure function on the loaded collection; the `...Step` functions
    wrap it in the load / save of the storage slot, writing only when the
    source's guard lets the write happen. */
module Streaming {
  import opened Optional
  import opened Chat
  import Text

  // ---------------------------------------------------------------- creation

  /** `[newThread, ...threads]`: the new thread goes first, with no messages. */
  function CreateThread(ts: seq<Thread>, id: string, name: string, now: int): (r: seq<Thread>)
    ensures |r| == |ts| + 1
    ensures r[0] == Thread(id, name, [], now)
    ensures forall k :: 0 <= k < |ts| ==> r[k + 1] == ts[k]
  {
    [Thread(id, name, [], now)] + ts
  }

  /** A fresh id and a good name keep the collection well formed, and the new
      thread is the one every later lookup by that id finds. */
  lemma CreateKeepsWellFormed(ts: seq<Thread>, id: string, name: string, now: int)
    requires WellFormed(ts) && GoodName(name)
    requires forall k :: 0 <= k < |ts| ==> ts[k].id != id
    ensures WellFormed(CreateThread(ts, id, name, now))
    ensures FindThread(CreateThread(ts, id, name, now), id) == Some(0)
  {
    var r := CreateThread(ts, id, name, now);
    forall i, j | 0 <= i < j < |r| ensures r[i].id != r[j].id {
      if i > 0 { assert r[i] == ts[i - 1]; }
      assert r[j] == ts[j - 1];
    }
  }

  // ---------------------------------------------------------------- append

  /** The message `handleSubmit` appends before streaming starts. */
  function PendingMessage(userInput: string, stamp: int): Message {
    Message(Text.Trim(userInput), None, None, None, false, stamp)
  }

  /** `ts` and `r` agree except that thread `i` gained `m` as its new last
      message and had `lastUpdated` set to `now`. */
  ghost predicate MessageAppended(ts: seq<Thread>, r: seq<Thread>, i: nat, m: Message, now: int)
    requires i < |ts|
  {
    var n := |ts[i].messages|;
    && |r| == |ts|
    && (forall k :: 0 <= k < |ts| && k != i ==> r[k] == ts[k])
    && r[i].id == ts[i].id && r[i].name == ts[i].name && r[i].lastUpdated == now
    && |r[i].messages| == n + 1
    && r[i].messages[..n] == ts[i].messages
    && r[i].messages[n] == m
  }

  /** Append a pending message to the first thread with id `id` and set its
      `lastUpdated`; with no such thread nothing changes. The stored input is
      the trimmed input and every response field starts out null. */
  function AppendPending(ts: seq<Thread>, id: string, userInput: string, stamp: int, now: int)
    : (r: seq<Thread>)
    ensures FindThread(ts, id).None? ==> r == ts
    ensures FindThread(ts, id).Some? ==>
      MessageAppended(ts, r, FindThread(ts, id).value,
                      Message(Text.Trim(userInput), None, None, None, false, stamp), now)
  {
    match FindThread(ts, id)
    case None => ts
    case Some(i) =>
      var t := ts[i];
      var r := ts[i := t.(messages := t.messages + [PendingMessage(userInput, stamp)], lastUpdated := now)];
      assert r[i].messages[..|t.messages|] == t.messages;
      r
  }

  /** After the append the thread is still the first with its id, and its last
      message is the pending one. */
  lemma AppendLeavesPending(ts: seq<Thread>, id: string, userInput: string, stamp: int, now: int)
    requires FindThread(ts, id).Some?
    ensures var r := AppendPending(ts, id, userInput, stamp, now);
      && FindThread(r, id) == FindThread(ts, id)
      && HasLastMessage(r, id)
      && r[FindThread(r, id).value].messages[|r[FindThread(r, id).value].messages| - 1]
         == PendingMessage(userInput, stamp)
  {
    var r := AppendPending(ts, id, userInput, stamp, now);
    var i := FindThread(ts, id).value;
    assert SameIds(ts, r) by {
      forall k | 0 <= k < |ts| ensures r[k].id == ts[k].id {
        if k != i { assert r[k] == ts[k]; }
      }
    }
    FindThreadSameIds(ts, r, id);
  }

  /** The append keeps, position by position, every thread with another id. */
  lemma AppendKeepsOthers(ts: seq<Thread>, id: string, userInput: string, stamp: int, now: int)
    ensures var r := AppendPending(ts, id, userInput, stamp, now);
      |r| == |ts| && forall k :: 0 <= k < |ts| && ts[k].id != id ==> r[k] == ts[k]
  {
  }

  /** The first append to a thread just created: the new thread holds exactly
      the pending message, and the rest of the collection is untouched. */
  lemma {:induction false} AppendToCreated(ts: seq<Thread>, id: string, name: string, created: int,
                                           userInput: string, stamp: int, now: int)
    ensures AppendPending(CreateThread(ts, id, name, created), id, userInput, stamp, now)
         == [Thread(id, name, [PendingMessage(userInput, stamp)], now)] + ts
  {
    AppendToCreatedHead(ts, id, name, created, userInput, stamp, now);
    AppendToCreatedRest(ts, id, name, created, userInput, stamp, now);
    FrontAndRest(AppendPending(CreateThread(ts, id, name, created), id, userInput, stamp, now),
                 Thread(id, name, [PendingMessage(userInput, stamp)], now), ts);
  }

  lemma {:induction false} AppendToCreatedHead(ts: seq<Thread>, id: string, name: string, created: int,
                                               userInput: string, stamp: int, now: int)
    ensures AppendPending(CreateThread(ts, id, name, created), id, userInput, stamp, now)[0]
         == Thread(id, name, [PendingMessage(userInput, stamp)], now)
  {
    assert FindThread(CreateThread(ts, id, name, created), id) == Some(0);
  }

  lemma {:induction false} AppendToCreatedRest(ts: seq<Thread>, id: string, name: string, created: int,
                                               userInput: string, stamp: int, now: int)
    ensures AppendPending(CreateThread(ts, id, name, created), id, userInput, stamp, now)[1..] == ts
  {
    assert FindThread(CreateThread(ts, id, name, created), id) == Some(0);
  }

  lemma FrontAndRest(r: seq<Thread>, x: Thread, ts: seq<Thread>)
    requires |r| > 0 && r[0] == x && r[1..] == ts
    ensures r == [x] + ts
  {
    assert r == [r[0]] + r[1..];
  }

  /** Appending keeps the collection well formed when the input is not blank,
      which the submit guard ensures. */
  lemma AppendKeepsWellFormed(ts: seq<Thread>, id: string, userInput: string, stamp: int, now: int)
    requires WellFormed(ts) && Text.Trim(userInput) != []
    ensures WellFormed(AppendPending(ts, id, userInput, stamp, now))
  {
    var r := AppendPending(ts, id, userInput, stamp, now);
    Text.TrimIdempotent(userInput);
    if FindThread(ts, id).Some? {
      var i := FindThread(ts, id).value;
      AppendedThreadGood(ts[i], r[i], PendingMessage(userInput, stamp));
      ReplaceThreadKeepsWellFormed(ts, r, i);
    }
  }

  /** A good thread that gains a good message stays good. */
  lemma AppendedThreadGood(t: Thread, t': Thread, m: Message)
    requires GoodThread(t) && GoodMessage(m)
    requires t'.name == t.name && |t'.messages| == |t.messages| + 1
    requires t'.messages[..|t.messages|] == t.messages && t'.messages[|t.messages|] == m
    ensures GoodThread(t')
  {
    var n := |t.messages|;
    forall k | 0 <= k < |t'.messages| ensures GoodMessage(t'.messages[k]) {
      if k < n { assert t'.messages[k] == t'.messages[..n][k]; }
    }
  }

  // ---------------------------------------------------------------- streaming

  /** One callback from the language-model collaborator. `UsageUpdate` only
      changes what the page displays and is never stored. */
  datatype Update =
    | ResultUpdate(text: string)
    | CodeOutputUpdate(output: Option<string>)
    | ExplanationUpdate(explanation: Option<string>)
    | ErrorUpdate(isError: bool)
    | UsageUpdate

  /** How the result callback treats the stored error flag. The code as written
      copies in a flag captured when the submission started (`Overwrite`);
      `Keep` leaves the stored flag alone. */
  datatype FlagPolicy = Overwrite(flag: bool) | Keep

  datatype Field = ResultField | CodeOutputField | ExplanationField | ErrorField

  /** The stored fields an update writes. */
  function Writes(u: Update, policy: FlagPolicy): set<Field> {
    match u
    case ResultUpdate(_) => if policy.Overwrite? then {ResultField, ErrorField} else {ResultField}
    case CodeOutputUpdate(_) => {CodeOutputField}
    case ExplanationUpdate(_) => {ExplanationField}
    case ErrorUpdate(_) => {ErrorField}
    case UsageUpdate => {}
  }

  /** What one callback does to the message it writes into. */
  function ApplyToMessage(m: Message, u: Update, policy: FlagPolicy): (r: Message)
    ensures r.userInput == m.userInput && r.timestamp == m.timestamp
    ensures ResultField !in Writes(u, policy) ==> r.result == m.result
    ensures CodeOutputField !in Writes(u, policy) ==> r.codeOutput == m.codeOutput
    ensures ExplanationField !in Writes(u, policy) ==> r.explanation == m.explanation
    ensures ErrorField !in Writes(u, policy) ==> r.hasError == m.hasError
    ensures u.ResultUpdate? ==> r.result == Some(u.text)
    ensures u.ResultUpdate? && policy.Overwrite? ==> r.hasError == policy.flag
    ensures u.CodeOutputUpdate? ==> r.codeOutput == u.output
    ensures u.ExplanationUpdate? ==> r.explanation == u.explanation
    ensures u.ErrorUpdate? ==> r.hasError == u.isError
  {
    match u
    case ResultUpdate(text) =>
      m.(result := Some(text), hasError := if policy.Overwrite? then policy.flag else m.hasError)
    case CodeOutputUpdate(output) => m.(codeOutput := output)
    case ExplanationUpdate(explanation) => m.(explanation := explanation)
    case ErrorUpdate(isError) => m.(hasError := isError)
    case UsageUpdate => m
  }

  /** Updates that write different fields can arrive in either order. */
  lemma UpdatesCommute(m: Message, u1: Update, u2: Update, policy: FlagPolicy)
    requires Writes(u1, policy) !! Writes(u2, policy)
    ensures ApplyToMessage(ApplyToMessage(m, u1, policy), u2, policy)
         == ApplyToMessage(ApplyToMessage(m, u2, policy), u1, policy)
  {
    match u1
    case ResultUpdate(_) =>
      if policy.Overwrite? { assert ErrorField in Writes(u1, policy); }
    case _ =>
  }

  /** A repeated callback with the same value changes nothing more. */
  lemma UpdateIdempotent(m: Message, u: Update, policy: FlagPolicy)
    ensures ApplyToMessage(ApplyToMessage(m, u, policy), u, policy) == ApplyToMessage(m, u, policy)
  {
  }

  /** The stored error flag is not sticky: a later error callback or (under
      the as-written policy) a result callback can clear it again. */
  lemma ErrorFlagNotSticky(m: Message, text: string)
    ensures ApplyToMessage(ApplyToMessage(m, ErrorUpdate(true), Keep), ErrorUpdate(false), Keep).hasError == false
    ensures ApplyToMessage(ApplyToMessage(m, ErrorUpdate(true), Keep), ResultUpdate(text), Overwrite(false)).hasError == false
  {
  }

  /** The value of one stored field: a nullable text, or the error flag. */
  datatype FieldValue = TextValue(text: Option<string>) | FlagValue(flag: bool)

  function FieldOf(m: Message, f: Field): FieldValue {
    match f
    case ResultField => TextValue(m.result)
    case CodeOutputField => TextValue(m.codeOutput)
    case ExplanationField => TextValue(m.explanation)
    case ErrorField => FlagValue(m.hasError)
  }

  /** The value callback `u` writes into field `f`, read off the callback alone. */
  function Written(u: Update, policy: FlagPolicy, f: Field): FieldValue
    requires f in Writes(u, policy)
  {
    match u
    case ResultUpdate(text) => if f == ResultField then TextValue(Some(text)) else FlagValue(policy.flag)
    case CodeOutputUpdate(output) => TextValue(output)
    case ExplanationUpdate(explanation) => TextValue(explanation)
    case ErrorUpdate(isError) => FlagValue(isError)
  }

  /** A callback sets exactly the fields it writes, each to the value it carries. */
  lemma ApplyWrites(m: Message, u: Update, policy: FlagPolicy, f: Field)
    ensures FieldOf(ApplyToMessage(m, u, policy), f)
         == if f in Writes(u, policy) then Written(u, policy, f) else FieldOf(m, f)
  {
  }

  /** The message after the callbacks `events`, applied in order. */
  function FoldMessage(m: Message, events: seq<Update>, policy: FlagPolicy): (r: Message)
    ensures r.userInput == m.userInput && r.timestamp == m.timestamp
    decreases |events|
  {
    if events == [] then m else FoldMessage(ApplyToMessage(m, events[0], policy), events[1..], policy)
  }

  /** The position of the last callback in `events` that writes field `f`. */
  function LastWriter(events: seq<Update>, policy: FlagPolicy, f: Field): (j: Option<nat>)
    ensures j.None? <==> forall k :: 0 <= k < |events| ==> f !in Writes(events[k], policy)
    ensures j.Some? ==> j.value < |events| && f in Writes(events[j.value], policy)
    ensures j.Some? ==> forall k :: j.value < k < |events| ==> f !in Writes(events[k], policy)
    decreases |events|
  {
    if events == [] then None
    else
      match LastWriter(events[1..], policy, f)
      case Some(j) => Some(j + 1)
      case None => if f in Writes(events[0], policy) then Some(0) else None
  }

  /** What field `f` holds after `events`: the value its last writer carries,
      or `init` when no callback writes it. */
  function LastValue(init: FieldValue, events: seq<Update>, policy: FlagPolicy, f: Field): FieldValue {
    match LastWriter(events, policy, f)
    case None => init
    case Some(j) => Written(events[j], policy, f)
  }

  /** After a run of callbacks every field holds what its last writer wrote,
      or its old value when nothing wrote it. */
  lemma {:induction false} FoldLastValue(m: Message, events: seq<Update>, policy: FlagPolicy, f: Field)
    ensures FieldOf(FoldMessage(m, events, policy), f) == LastValue(FieldOf(m, f), events, policy, f)
    decreases |events|
  {
    if events != [] {
      ApplyWrites(m, events[0], policy, f);
      FoldLastValue(ApplyToMessage(m, events[0], policy), events[1..], policy, f);
    }
  }

  /** `ts` and `r` agree except that the last message of thread `i` is `m`. */
  ghost predicate LastMessageBecomes(ts: seq<Thread>, r: seq<Thread>, i: nat, m: Message)
    requires i < |ts| && |ts[i].messages| > 0
  {
    var n := |ts[i].messages|;
    && |r| == |ts|
    && (forall k :: 0 <= k < |ts| && k != i ==> r[k] == ts[k])
    && r[i].id == ts[i].id && r[i].name == ts[i].name && r[i].lastUpdated == ts[i].lastUpdated
    && |r[i].messages| == n
    && (forall j :: 0 <= j < n - 1 ==> r[i].messages[j] == ts[i].messages[j])
    && r[i].messages[n - 1] == m
  }

  function ReplaceLast(ts: seq<Thread>, i: nat, m: Message): (r: seq<Thread>)
    requires i < |ts| && |ts[i].messages| > 0
    ensures LastMessageBecomes(ts, r, i, m)
    ensures SameShape(ts, r)
  {
    var msgs := ts[i].messages;
    ts[i := ts[i].(messages := msgs[|msgs| - 1 := m])]
  }

  /** Two rewrites of the same last message amount to the second one. */
  lemma LastMessageBecomesTwice(ts: seq<Thread>, a: seq<Thread>, b: seq<Thread>, i: nat, m1: Message, m2: Message)
    requires i < |ts| && |ts[i].messages| > 0
    requires LastMessageBecomes(ts, a, i, m1) && LastMessageBecomes(a, b, i, m2)
    ensures LastMessageBecomes(ts, b, i, m2)
  {
  }

  /** A streaming callback's write: the last message of the first thread with id
      `id` is updated; a missing thread or an empty thread means no change.
      `lastUpdated` is not bumped. */
  function ApplyUpdate(ts: seq<Thread>, id: string, u: Update, policy: FlagPolicy): (r: seq<Thread>)
    ensures SameShape(ts, r)
    ensures !HasLastMessage(ts, id) ==> r == ts
    ensures HasLastMessage(ts, id) ==>
      var i := FindThread(ts, id).value;
      var msgs := ts[i].messages;
      LastMessageBecomes(ts, r, i, ApplyToMessage(msgs[|msgs| - 1], u, policy))
  {
    if !HasLastMessage(ts, id) then ts
    else
      var i := FindThread(ts, id).value;
      var msgs := ts[i].messages;
      ReplaceLast(ts, i, ApplyToMessage(msgs[|msgs| - 1], u, policy))
  }

  /** The catch path: the last message of the thread matching the id the page
      had active when the submission started gets `hasError = true` and the
      error text as its result. A null id matches nothing. */
  function RecordFailure(ts: seq<Thread>, active: Option<string>, error: string): (r: seq<Thread>)
    ensures SameShape(ts, r)
    ensures active.None? ==> r == ts
    ensures active.Some? && !HasLastMessage(ts, active.value) ==> r == ts
    ensures active.Some? && HasLastMessage(ts, active.value) ==>
      var i := FindThread(ts, active.value).value;
      var last := ts[i].messages[|ts[i].messages| - 1];
      LastMessageBecomes(ts, r, i, last.(hasError := true, result := Some(error)))
  {
    match active
    case None => ts
    case Some(id) =>
      if !HasLastMessage(ts, id) then ts
      else
        var i := FindThread(ts, id).value;
        var last := ts[i].messages[|ts[i].messages| - 1];
        ReplaceLast(ts, i, last.(hasError := true, result := Some(error)))
  }

  /** Rewriting the fields of a last message never breaks the invariant: ids,
      names and user inputs are untouched. */
  lemma ReplaceLastKeepsWellFormed(ts: seq<Thread>, r: seq<Thread>, i: nat, m: Message)
    requires i < |ts| && |ts[i].messages| > 0
    requires WellFormed(ts) && LastMessageBecomes(ts, r, i, m)
    requires m.userInput == ts[i].messages[|ts[i].messages| - 1].userInput
    ensures WellFormed(r)
  {
    assert GoodThread(ts[i]);
    assert GoodThread(r[i]);
    forall a, b | 0 <= a < b < |r| ensures r[a].id != r[b].id {
      assert r[a].id == ts[a].id && r[b].id == ts[b].id;
    }
    forall k | 0 <= k < |r| ensures GoodThread(r[k]) {
      if k != i { assert r[k] == ts[k]; }
    }
  }

  lemma UpdateKeepsWellFormed(ts: seq<Thread>, id: string, u: Update, policy: FlagPolicy)
    requires WellFormed(ts)
    ensures WellFormed(ApplyUpdate(ts, id, u, policy))
  {
    if HasLastMessage(ts, id) {
      var i := FindThread(ts, id).value;
      var msgs := ts[i].messages;
      ReplaceLastKeepsWellFormed(ts, ApplyUpdate(ts, id, u, policy), i, ApplyToMessage(msgs[|msgs| - 1], u, policy));
    }
  }

  lemma FailureKeepsWellFormed(ts: seq<Thread>, active: Option<string>, error: string)
    requires WellFormed(ts)
    ensures WellFormed(RecordFailure(ts, active, error))
  {
    if active.Some? && HasLastMessage(ts, active.value) {
      var i := FindThread(ts, active.value).value;
      var last := ts[i].messages[|ts[i].messages| - 1];
      ReplaceLastKeepsWellFormed(ts, RecordFailure(ts, active, error), i, last.(hasError := true, result := Some(error)));
    }
  }

  // ---------------------------------------------------------------- storage steps

  /** Thread creation writes unconditionally. */
  function CreateStep(st: Store, id: string, name: string, now: int): (r: Store)
    ensures Load(r) == CreateThread(Load(st), id, name, now)
  {
    Save(CreateThread(Load(st), id, name, now))
  }

  /** The append writes only when the thread is found (`threadIndex !== -1`). */
  function AppendStep(st: Store, id: string, userInput: string, stamp: int, now: int): (r: Store)
    ensures Load(r) == AppendPending(Load(st), id, userInput, stamp, now)
    ensures FindThread(Load(st), id).None? ==> r == st
  {
    var ts := Load(st);
    if FindThread(ts, id).Some? then Save(AppendPending(ts, id, userInput, stamp, now)) else st
  }

  /** A streaming callback writes only when the thread has a last message;
      the usage callback never writes. */
  function UpdateStep(st: Store, id: string, u: Update, policy: FlagPolicy): (r: Store)
    ensures u.UsageUpdate? ==> r == st
    ensures !u.UsageUpdate? ==> Load(r) == ApplyUpdate(Load(st), id, u, policy)
    ensures !HasLastMessage(Load(st), id) ==> r == st
  {
    var ts := Load(st);
    if u.UsageUpdate? || !HasLastMessage(ts, id) then st else Save(ApplyUpdate(ts, id, u, policy))
  }

  function FailureStep(st: Store, active: Option<string>, error: string): (r: Store)
    ensures Load(r) == RecordFailure(Load(st), active, error)
    ensures active.None? ==> r == st
    ensures active.Some? && !HasLastMessage(Load(st), active.value) ==> r == st
  {
    var ts := Load(st);
    if active.Some? && HasLastMessage(ts, active.value) then Save(RecordFailure(ts, active, error)) else st
  }
}

=== FILE: text.dfy ===
/** ASCII models of the JavaScript string operations the chat core relies on:
    `trim`, `toLowerCase`, `includes`, and writing a count in decimal. */
module Text {

  // ---------------------------------------------------------------- trim

  /** The ASCII members of JavaScript's WhiteSpace and LineTerminator classes. */
  predicate IsSpace(c: char) {
    c == ' ' || c == '\t' || c == '\n' || c == '\r' || c == '\U{B}' || c == '\U{C}'
  }

  ghost predicate AllSpace(s: string) {
    forall k :: 0 <= k < |s| ==> IsSpace(s[k])
  }

  /** Neither end of `s` is whitespace: `s` is already in trimmed form. */
  predicate Trimmed(s: string) {
    s == [] || (!IsSpace(s[0]) && !IsSpace(s[|s| - 1]))
  }

  /** `r` is what is left of `s` once leading and trailing whitespace are cut. */
  ghost predicate IsTrimOf(r: string, s: string) {
    exists i, j :: 0 <= i <= j <= |s| && r == s[i..j]
      && AllSpace(s[..i]) && AllSpace(s[j..]) && Trimmed(r)
  }

  function TrimStart(s: string): (r: string)
    ensures |r| <= |s| && r == s[|s| - |r|..]
    ensures AllSpace(s[..|s| - |r|])
    ensures r == [] || !IsSpace(r[0])
  {
    if s == [] || !IsSpace(s[0]) then s
    else
      var r := TrimStart(s[1..]);
      assert s[..|s| - |r|] == [s[0]] + s[1..][..|s[1..]| - |r|];
      r
  }

  function TrimEnd(s: string): (r: string)
    ensures |r| <= |s| && r == s[..|r|]
    ensures AllSpace(s[|r|..])
    ensures r == [] || !IsSpace(r[|r| - 1])
  {
    if s == [] || !IsSpace(s[|s| - 1]) then s
    else
      var r := TrimEnd(s[..|s| - 1]);
      assert s[|r|..] == s[..|s| - 1][|r|..] + [s[|s| - 1]];
      r
  }

  /** JavaScript's `String.prototype.trim`, restricted to ASCII whitespace. */
  function Trim(s: string): (r: string)
    ensures IsTrimOf(r, s)
  {
    var t := TrimStart(s);
    var r := TrimEnd(t);
    TrimWitness(s, t, r);
    r
  }

  lemma TrimWitness(s: string, t: string, r: string)
    requires t == TrimStart(s) && r == TrimEnd(t)
    ensures IsTrimOf(r, s)
  {
    var i := |s| - |t|;
    var j := i + |r|;
    assert r == s[i..j];
    assert s[j..] == t[|r|..];
    assert r == [] || r[0] == t[0];
    assert Trimmed(r);
    assert 0 <= i <= j <= |s| && r == s[i..j] && AllSpace(s[..i]) && AllSpace(s[j..]) && Trimmed(r);
  }

  /** Two cuts that each stop at a non-space character start at the same index. */
  lemma SameStart(s: string, i: int, i': int)
    requires 0 <= i < |s| && 0 <= i' < |s|
    requires AllSpace(s[..i]) && !IsSpace(s[i])
    requires AllSpace(s[..i']) && !IsSpace(s[i'])
    ensures i == i'
  {
  }

  lemma SameEnd(s: string, j: int, j': int)
    requires 0 < j <= |s| && 0 < j' <= |s|
    requires AllSpace(s[j..]) && !IsSpace(s[j - 1])
    requires AllSpace(s[j'..]) && !IsSpace(s[j' - 1])
    ensures j == j'
  {
  }

  lemma NoSpaceAfterEmptyCut(s: string, i: int, k: int)
    requires 0 <= i <= |s| && AllSpace(s[..i]) && AllSpace(s[i..])
    requires 0 <= k < |s|
    ensures IsSpace(s[k])
  {
    if k < i { assert s[..i][k] == s[k]; } else { assert s[i..][k - i] == s[k]; }
  }

  /** A cut of `s` that removes only whitespace and leaves none at either end. */
  ghost predicate TrimCut(s: string, i: int, j: int) {
    0 <= i <= j <= |s| && AllSpace(s[..i]) && AllSpace(s[j..]) && Trimmed(s[i..j])
  }

  /** Trimming has exactly one possible outcome: any cut of `s` that removes only
      whitespace and leaves no whitespace at either end is `Trim(s)`. */
  lemma TrimUnique(r: string, r': string, s: string)
    requires IsTrimOf(r, s) && IsTrimOf(r', s)
    ensures r == r'
  {
    var i, j :| 0 <= i <= j <= |s| && r == s[i..j]
      && AllSpace(s[..i]) && AllSpace(s[j..]) && Trimmed(r);
    var i', j' :| 0 <= i' <= j' <= |s| && r' == s[i'..j']
      && AllSpace(s[..i']) && AllSpace(s[j'..]) && Trimmed(r');
    TrimCutsAgree(s, i, j, i', j');
  }

  lemma TrimCutsAgree(s: string, i: int, j: int, i': int, j': int)
    requires TrimCut(s, i, j) && TrimCut(s, i', j')
    ensures s[i..j] == s[i'..j']
  {
    if i == j && i' < j' {
      NoSpaceAfterEmptyCut(s, i, i');
    } else if i < j && i' == j' {
      NoSpaceAfterEmptyCut(s, i', i);
    } else if i < j {
      assert s[i..j][0] == s[i] && s[i'..j'][0] == s[i'];
      SameStart(s, i, i');
      assert s[i..j][j - i - 1] == s[j - 1] && s[i'..j'][j' - i' - 1] == s[j' - 1];
      SameEnd(s, j, j');
    }
  }

  /** An input trims to the empty string exactly when it is all whitespace. */
  lemma TrimEmptyIff(s: string)
    ensures Trim(s) == [] <==> AllSpace(s)
  {
    var t := TrimStart(s);
    var n := |s| - |t|;
    if t != [] {
      assert s[n] == t[0];
    }
    var r := TrimEnd(t);
    if r == [] {
      assert t[|r|..] == t;
      assert t == [];
      forall k | 0 <= k < |s| ensures IsSpace(s[k]) {
        assert s[..n][k] == s[k];
      }
    }
  }

  /** The result of `Trim` is in trimmed form, and trimming it again changes nothing. */
  lemma TrimIdempotent(s: string)
    ensures Trimmed(Trim(s))
    ensures Trim(Trim(s)) == Trim(s)
  {
    var r := Trim(s);
    assert IsTrimOf(r, s);
    assert Trimmed(r);
    assert r == r[0..|r|] && r[..0] == [] && r[|r|..] == [];
    assert IsTrimOf(r, r);
    TrimUnique(Trim(r), r, r);
  }

  // ---------------------------------------------------------------- case

  /** `toLowerCase` on one character, ASCII letters only. */
  function LowerChar(c: char): char {
    if 'A' <= c <= 'Z' then (c as int - 'A' as int + 'a' as int) as char else c
  }

  function Lower(s: string): (r: string)
    ensures |r| == |s|
    ensures forall k :: 0 <= k < |s| ==> r[k] == LowerChar(s[k])
  {
    if s == [] then [] else [LowerChar(s[0])] + Lower(s[1..])
  }

  /** Lower-casing twice is lower-casing once. */
  lemma LowerIdempotent(s: string)
    ensures Lower(Lower(s)) == Lower(s)
  {
  }

  // ---------------------------------------------------------------- includes

  predicate StartsWith(s: string, prefix: string) {
    |prefix| <= |s| && s[..|prefix|] == prefix
  }

  /** `hay.includes(needle)`: a left-to-right scan for a starting position. */
  predicate Contains(hay: string, needle: string) {
    StartsWith(hay, needle) || (hay != [] && Contains(hay[1..], needle))
  }

  /** `needle` sits in `hay` starting at index `i`. */
  ghost predicate OccursAt(hay: string, needle: string, i: int) {
    0 <= i && i + |needle| <= |hay| && hay[i..i + |needle|] == needle
  }

  /** The scan finds the needle exactly when it occurs at some position. */
  lemma {:induction false} ContainsIffOccurs(hay: string, needle: string)
    ensures Contains(hay, needle) <==> exists i :: OccursAt(hay, needle, i)
  {
    if StartsWith(hay, needle) {
      assert OccursAt(hay, needle, 0);
    } else if hay != [] {
      ContainsIffOccurs(hay[1..], needle);
      if exists i :: OccursAt(hay[1..], needle, i) {
        var i :| OccursAt(hay[1..], needle, i);
        assert hay[1..][i..i + |needle|] == hay[i + 1..i + 1 + |needle|];
        assert OccursAt(hay, needle, i + 1);
      }
      if exists i :: OccursAt(hay, needle, i) {
        var i :| OccursAt(hay, needle, i);
        assert i != 0;
        assert hay[1..][i - 1..i - 1 + |needle|] == hay[i..i + |needle|];
        assert OccursAt(hay[1..], needle, i - 1);
      }
    }
  }

  /** Every string includes the empty string. */
  lemma ContainsEmpty(hay: string)
    ensures Contains(hay, [])
  {
    assert StartsWith(hay, []);
  }

  // ---------------------------------------------------------------- numbers

  predicate IsDigit(c: char) {
    '0' <= c <= '9'
  }

  function DigitChar(d: nat): (c: char)
    requires d < 10
    ensures IsDigit(c)
  {
    ('0' as int + d) as char
  }

  function DigitValue(c: char): (d: nat)
    requires IsDigit(c)
    ensures d < 10 && DigitChar(d) == c
  {
    c as int - '0' as int
  }

  /** A non-negative integer written in decimal, as `String(n)` writes it. */
  function NatToString(n: nat): (r: string)
    ensures r != []
    ensures forall k :: 0 <= k < |r| ==> IsDigit(r[k])
    ensures r[0] != '0' || r == "0"
    decreases n
  {
    if n < 10 then [DigitChar(n)] else NatToString(n / 10) + [DigitChar(n % 10)]
  }

  /** Reads a string of decimal digits back into the number it denotes. */
  function ParseDecimal(s: string): nat
    requires forall k :: 0 <= k < |s| ==> IsDigit(s[k])
  {
    if s == [] then 0 else ParseDecimal(s[..|s| - 1]) * 10 + DigitValue(s[|s| - 1])
  }

  /** Writing a count in decimal loses nothing: reading it back gives the count. */
  lemma {:induction false} ParseNatToString(n: nat)
    ensures ParseDecimal(NatToString(n)) == n
    decreases n
  {
    var r := NatToString(n);
    if n >= 10 {
      ParseNatToString(n / 10);
      assert r[..|r| - 1] == NatToString(n / 10);
    }
  }

  // ---------------------------------------------------------------- classes

  /** `[a-z0-9]` under the regular expression's case-insensitive flag. */
  predicate IsAsciiAlnum(c: char) {
    'a' <= c <= 'z' || 'A' <= c <= 'Z' || IsDigit(c)
  }
}
